=== FILE: README.md ===
# Wall-following planner search, modelled in Dafny

This project models the search bookkeeping of `NHPlannerL2`, the wall-following best-first
planner of `rrt_planning`. It also models the `parse` function of the experiment driver, which
reads a start/goal configuration string.

The planner keeps:

- a frontier (`open`) of (node, action) keys with real priorities;
- a table of reached configurations;
- a cache of samples around each corner;
- a global list of closed triangular regions;
- the search tree.

The map, distance metrics, steering function, wedge geometry and random generators are all
floating-point or random collaborators outside the planner. They are collected in one record of
functions, `Geometry.Oracles`, so each planner operation is a pure function of that record and
of the planner state. What remains is discrete: which entries are admitted or pruned, which
ancestors receive a subgoal, which exit actions and triangles wall following proposes, when a
region is closed, how the path is rebuilt and what a search leaves behind.

Modules, following the structure of the planner:

- `Geometry`: configurations, triangles and the oracle record.
- `OpenList`: the frontier as a sequence in insertion order. Pop removes the earliest entry of
  least priority.
- `SearchTree`: actions and their parent links, and the node arena indexed by `nat`.
  - `Reach` builds a node from a steer.
  - `PathTo` is a reference definition of the reconstructed path; `RetrievePath` is the loop
    that performs the reconstruction.
- `PlannerState`: the planner's fields and its validity invariant.
  - Also defines `Extends`: the frontier only grows, and every insertion obeys the pruning rule
    in force when it was made.
- `Regions`: the global closed list: `insideGlobal`, `createTriangle`, `addGlobal`.
- `WallFollowing`: `findAction`'s case analysis.
- `Frontier`: `addOpen` and `addSubgoal`. The latter is the loop that offers a subgoal to up to
  `k_ancestors` ancestors. Its reference definition is `Visited`, the ancestor walk.
- `Planner`:
  - the goal test;
  - one iteration of the search loop (`Expand`);
  - the fuel-bounded loop (`Search`);
  - `makePlan` (`MakePlan`).
- `Experiment`: `getline` splitting on `_`, and `parse`.

Some of the code's behaviour is easy to misread. The model follows the code:

- A popped action that is neither the goal nor a corner gets no candidate at all
  (NHPlannerL2.cpp:170-189). Only the goal is tried as is, and a corner through its samples.
- The goal action is built as clockwise, subgoal, not a corner (NHPlannerL2.cpp:112).
- In `findAction` the collision vector is always swapped before the midpoint is taken. The
  guard `!is_los` at that point is always true.
- `collisionPoints` writes into a reused vector. In `addGlobal`, the second query can see the
  first query's contents, so the oracle is given the prior contents as an argument.
- The reached table and the node arena outlive a search. Clearing `reached` frees no node, so
  the arena grows across calls to `makePlan`.
- Configurations are compared by exact equality, as Eigen vectors are compared.

## Model

| member | source | states |
|---|---|---|
| Planner.IsReached | rrt_planning/src/NHPlannerL2.cpp:319-325 | a configuration reaches the target exactly when it is within `deltaX` in position and within `deltaTheta` in heading; failing either test gives false |
| OpenList.Insert | rrt_planning/src/NHPlannerL2.cpp:387-389 | insertion adds exactly one entry to the frontier's multiset and leaves the earlier entries in place |
| OpenList.Pop | rrt_planning/src/NHPlannerL2.cpp:130-134 | the popped entry has a priority no greater than any other entry; the rest plus the popped entry is the frontier as a multiset |
| SearchTree.Reach | rrt_planning/src/NHPlannerL2.cpp:300-317 | a node is created exactly when the steer succeeds; it is a child of the current node, carries the steer's state and cost, and stores the trajectory without its last configuration |
| SearchTree.PathTo | rrt_planning/src/NHPlannerL2.cpp:609-634 | the reconstructed path is never empty, begins at the first cost-zero ancestor and ends at the node |
| SearchTree.RetrievePath | rrt_planning/src/NHPlannerL2.cpp:609-634 | the parent walk with reversed primitives, once reversed, equals the reference path (root state, then each child's primitives in order followed by its state); `length` is the node's cost |
| SearchTree.AppendChild | rrt_planning/src/NHPlannerL2.cpp:202-205 | adding a reached node whose parent is in the arena keeps the arena a tree |
| PlannerState.Cleared | rrt_planning/src/NHPlannerL2.cpp:157-160 | after the clean-up, `open`, `reached`, `corner_samples` and `global_closed` are empty, and nothing else changes |
| Regions.InsideGlobal | rrt_planning/src/NHPlannerL2.cpp:524-533 | true exactly when some global triangle contains the point; the `subgoal` argument has no influence |
| Regions.CreateTriangle | rrt_planning/src/NHPlannerL2.cpp:535-546 | the local wedge is (action, node, apex); the apex is the midpoint of the node-to-parent collision points when there are exactly two, otherwise the parent |
| Regions.AddGlobalAsWritten | rrt_planning/src/NHPlannerL2.cpp:498-522 | as written, a blocked segment reported with fewer than two collision points makes addGlobal read past the end of the collision vector, and in no other case; a closed region starts with (node, action) |
| Regions.AddGlobalReadsPastEnd | rrt_planning/src/NHPlannerL2.cpp:505-508 | a concrete segment query reporting one collision point drives the as-written addGlobal past the end of the vector |
| Regions.AddGlobal | rrt_planning/src/NHPlannerL2.cpp:498-522 | exactly one triangle (node, action, apex) is appended when the segment is clear, or when a second collision point exists within `deltaX` of the action; otherwise the list is unchanged |
| Regions.AddGlobalAgrees | rrt_planning/src/NHPlannerL2.cpp:498-522 | wherever the as-written reading is defined, the guarded addGlobal makes the same choice and appends the same triangle |
| Regions.GlobalClosureMatchesLocalWedge | rrt_planning/src/NHPlannerL2.cpp:498-546 | with a clear segment and no collision point, the region closed globally is the node's local wedge with its first two vertices exchanged |
| WallFollowing.ExitSides | rrt_planning/src/NHPlannerL2.cpp:447-493 | a side appears among the exit actions exactly when it is tried (clockwise: the action is clockwise or resampling is forced; counter-clockwise: it is not, or resampling is forced) and its exit point is inside the bounds |
| WallFollowing.ExitRules | rrt_planning/src/NHPlannerL2.cpp:447-493 | at most two exit actions; each is not a subgoal, lies inside the bounds at its side's exit point, is corner-flagged as the map says and is linked to the action under resampling or else to the action's parent; a wedge triangle is recorded exactly when resampling is forced and the exit points differ |
| WallFollowing.FindAction | rrt_planning/src/NHPlannerL2.cpp:420-496 | a clear segment records the local wedge first; a successful obstacle-following yields exactly one corner action at the clear point, with the action's direction and parent; fewer than two collision points yield no action |
| WallFollowing.FindActionWedge | rrt_planning/src/NHPlannerL2.cpp:420-496 | around a wedge, findAction's actions obey the exit rules and the side characterisation, and its triangles are the local wedge (when the segment was clear) followed by the resampling wedge |
| Frontier.AddOpen | rrt_planning/src/NHPlannerL2.cpp:372-391 | one entry (node, action) is appended, with priority d(node, action) + d(action, target) + cost, exactly when the action is the target or lies in no global triangle, and lies in none of the node's triangles; otherwise the frontier is unchanged; nothing else changes |
| Frontier.TargetNeverClosed | rrt_planning/src/NHPlannerL2.cpp:375-379 | the target is admitted whatever the global closed list holds, unless the node's own triangles contain it |
| Frontier.VisitedWalk | rrt_planning/src/NHPlannerL2.cpp:405-416 | the propagation visits at most `k_ancestors` nodes: the parent, then its ancestors in order, none holding the subgoal, none twice; when it stops short of the budget, the next ancestor holds the subgoal |
| Frontier.EnqueuedEntries | rrt_planning/src/NHPlannerL2.cpp:405-416 | a frontier entry is added for a visited ancestor exactly when its triangles leave the subgoal out, with that ancestor's priority for the subgoal |
| Frontier.Propagate | rrt_planning/src/NHPlannerL2.cpp:405-416 | the loop appends the entries of the reference walk and adds the subgoal to every visited ancestor and to no other node |
| Frontier.AddSubgoal | rrt_planning/src/NHPlannerL2.cpp:393-418 | nothing changes when a global triangle contains the action; otherwise the frontier grows by the walk's entries, exactly the visited ancestors gain the subgoal, and nothing else changes |
| Frontier.AddSubgoalSound | rrt_planning/src/NHPlannerL2.cpp:393-418 | addSubgoal keeps the planner valid, leaves every node's shape unchanged and only inserts entries that obey the pruning rule |
| Frontier.AddSubgoalBounded | rrt_planning/src/NHPlannerL2.cpp:393-418 | at most `k_ancestors` entries are added, each for the parent of the node or one of its first `k_ancestors` ancestors |
| Frontier.AddSubgoalEntries | rrt_planning/src/NHPlannerL2.cpp:396 | every entry added carries the subgoal copy of the action (subgoal flag set; same state, direction and corner flag; linked to the action's parent) |
| Planner.CandidatesFor | rrt_planning/src/NHPlannerL2.cpp:165-189 | the goal is tried as is; a corner is tried through its cached samples, or itself when none are cached, with headings around the bearing from the node; any other action yields no candidate |
| Planner.Register | rrt_planning/src/NHPlannerL2.cpp:199-211 | the configuration ends up in the reached table, mapped to the node returned; a new configuration joins the arena and the reached table, gets one frontier entry for the target with its priority, and holds the goal as a subgoal; a configuration reached before resolves to its registered node and nothing changes; earlier reached entries keep their nodes |
| Planner.AddNode | rrt_planning/src/NHPlannerL2.cpp:202-207 | a configuration not reached before is appended to the arena and the reached table, its entry for the target is appended to the frontier, and the planner stays valid with only admissible insertions |
| Planner.OfferParent | rrt_planning/src/NHPlannerL2.cpp:215-222 | the popped action's parent is offered to the reached node as a subgoal, and recorded there, exactly when the node does not hold it yet; afterwards the node holds it either way, and no node loses a subgoal |
| Planner.Arrived | rrt_planning/src/NHPlannerL2.cpp:199-222 | a configuration steered to is in the reached table afterwards, and its node holds the popped action's parent as a subgoal; no reached entry or subgoal is lost |
| Planner.Headings | rrt_planning/src/NHPlannerL2.cpp:191-197 | every candidate keeps its position, and the goal keeps its heading |
| Planner.HeadingsDrawn | rrt_planning/src/NHPlannerL2.cpp:191-197 | every candidate other than the goal gets as heading `theta` plus the angle draw (`sampleAngle`) numbered by the draws of the candidates before it |
| Planner.TrySample | rrt_planning/src/NHPlannerL2.cpp:193-224 | one candidate consumes one angle draw unless it is the goal; `improve` is cleared exactly when the popped node steers to the candidate; a candidate steered to is registered in the reached table and its node holds the popped action's parent as a subgoal; the planner stays valid, inserts only admissible entries and keeps every reached entry |
| Planner.TrySamples | rrt_planning/src/NHPlannerL2.cpp:191-226 | the candidate loop keeps the planner valid, inserts only admissible entries, consumes one angle draw per candidate other than the goal and never drops a reached entry |
| Planner.TrySamplesReached | rrt_planning/src/NHPlannerL2.cpp:191-226 | every candidate the popped node steers to, headings drawn in order, is in the reached table after the loop, and its node holds the popped action's parent as a subgoal |
| Planner.TrySamplesImprove | rrt_planning/src/NHPlannerL2.cpp:168-229 | the action still needs improving after the loop exactly when the steer from the popped node failed for every candidate, headings drawn in order |
| Planner.AsSize | rrt_planning/src/NHPlannerL2.cpp:586 | `k` compared with a vector size is read modulo 2^64: a negative `k` becomes 2^64 + k |
| Planner.CornerLoop | rrt_planning/src/NHPlannerL2.cpp:586-596 | the loop keeps only free samples, never more than wanted, and stops short of the retry budget only once enough are kept |
| Planner.SampleCorner | rrt_planning/src/NHPlannerL2.cpp:583-601 | the corner's cache entry, keyed by its planar position, becomes at most k free samples (exactly k unless the retries run out); other cache entries and all other fields are unchanged |
| Planner.Nearest | rrt_planning/src/NHPlannerL2.cpp:245-246 | the corner returned is indexed and no indexed corner is strictly nearer |
| Planner.AddSubgoalKeeps | rrt_planning/src/NHPlannerL2.cpp:259 | addSubgoal from the popped node keeps the planner valid, obeys the pruning rule and inserts subgoals only |
| Planner.OfferCorner | rrt_planning/src/NHPlannerL2.cpp:243-259 | a corner within `deltaX` of its nearest indexed corner leaves the index and the sample cache unchanged and offers that nearest corner through addSubgoal; otherwise it is appended to the index, its planar position gets a cache entry and no cache entry is lost; either way the frontier gains subgoal entries only |
| Planner.NewCorner | rrt_planning/src/NHPlannerL2.cpp:250-259 | a corner not yet indexed is appended to the index, gets a cache entry under its planar position, and is offered as a subgoal without any reached entry or the path length changing |
| Planner.Offer | rrt_planning/src/NHPlannerL2.cpp:239-262 | a proposed action is offered from the popped node; a non-corner changes only the frontier, through addOpen; a corner then goes through the corner index and addSubgoal; the proposed action joins the frontier whenever the pruning rule admits it; all insertions are admissible, and any entry other than a subgoal carries the proposed action |
| Planner.EnqueueActions | rrt_planning/src/NHPlannerL2.cpp:233-269 | nothing is enqueued when the popped node's heading is 2π or more in absolute value; otherwise every proposed action other than the popped one that the pruning rule admits joins the frontier with its priority; no non-subgoal entry with the popped action's state is added; reached table and path length are unchanged |
| Planner.EnqueueAction | rrt_planning/src/NHPlannerL2.cpp:236-263 | a proposed action is offered exactly when the popped node's heading is below 2π in absolute value and the action differs from the popped one in state; an offered action the pruning rule admits joins the frontier |
| Planner.AddTriangles | rrt_planning/src/NHPlannerL2.cpp:271-274 | the popped node's triangles are extended by findAction's triangles, in order, and no other node changes |
| Planner.CloseAction | rrt_planning/src/NHPlannerL2.cpp:276-281 | a reached action's region is closed globally from the popped node towards the action's parent, and the popped node records the action as a subgoal; no other node changes and no subgoal is lost |
| Planner.Expand | rrt_planning/src/NHPlannerL2.cpp:165-281 | one iteration keeps the session valid and only inserts admissible entries; when every candidate fails, the global list is unchanged and the node gains findAction's triangles; otherwise the region is closed and the action becomes the node's subgoal; every candidate steered to is in the reached table, its node holding the action's parent as a subgoal; when none is steered to and the node's heading is below 2π in absolute value, every action findAction proposes, other than the popped one, joins the frontier if the pruning rule admits it |
| Planner.Improve | rrt_planning/src/NHPlannerL2.cpp:229-275 | when no candidate was reached, findAction's proposals other than the popped action are enqueued, each admitted one with its priority, while the node's heading is below 2π; the node gains findAction's triangles; the global list is unchanged and every insertion is admissible |
| Planner.Take | rrt_planning/src/NHPlannerL2.cpp:130-134 | the frontier loses exactly one entry, of least priority, naming a node of the arena |
| Planner.Finish | rrt_planning/src/NHPlannerL2.cpp:136-162 | on success the path is the reconstructed path to the popped node, the length is its cost, and the four per-search collections are cleared |
| Planner.Search | rrt_planning/src/NHPlannerL2.cpp:129-296 | both exits leave the four per-search collections empty; an empty frontier or spent fuel gives no plan; when the popped node reaches the goal the search ends there with the path to it; a plan found ends at a node that reaches the goal, with the path to it and its cost as length |
| Planner.MakePlan | rrt_planning/src/NHPlannerL2.cpp:76-127 | a start or goal that is not free is rejected and nothing changes; otherwise a fresh root is added, the target is the goal action, the search runs and leaves the collections empty; a plan found ends in a configuration that reaches the goal; from an idle planner, a start that already reaches the goal is the plan, alone |
| Planner.Rooted | rrt_planning/src/NHPlannerL2.cpp:107-122 | the set-up appends the start as a root node (its own parent, cost zero, no triangles) holding the goal as its only subgoal, whose path is the start alone; the goal action becomes the target and its entry from the root, with its priority, is appended to the frontier unconditionally; the start maps to the root in the reached table; the corner index is the goal alone; the planner stays valid |
| Planner.RootedFound | rrt_planning/src/NHPlannerL2.cpp:129-162 | a plan found by the search from the new root ends at an arena node whose configuration reaches the goal, with the path to that node and its cost as length |
| Planner.RootedSearch | rrt_planning/src/NHPlannerL2.cpp:107-139 | from an idle planner, a search from the new root whose start already reaches the goal ends at once with the root as the node and the start alone as the path |
| Planner.RootedIdle | rrt_planning/src/NHPlannerL2.cpp:117 | from an idle planner, the root's entry for the target is the only frontier entry |
| Experiment.Segments | rrt_planning/src/Experiment.cpp:91-97 | no extracted segment contains the delimiter |
| Experiment.SegmentsTerminated | rrt_planning/src/Experiment.cpp:94-97 | the segments, each followed by the delimiter, give back the input, with a delimiter appended when the input did not end with one |
| Experiment.TerminatedSegments | rrt_planning/src/Experiment.cpp:94-97 | delimiter-free segments, each terminated and concatenated, are extracted back unchanged |
| Experiment.TrailingDelimiter | rrt_planning/src/Experiment.cpp:94-97 | a single delimiter after a text not ending in one adds no segment |
| Experiment.SegmentCount | rrt_planning/src/Experiment.cpp:94-97 | the number of segments is the number of delimiters, plus one for a non-empty tail |
| Experiment.Parse | rrt_planning/src/Experiment.cpp:89-122 | succeeds exactly with eight segments; on failure both poses are unchanged; on success the positions and orientations come from segments 0-3 and 4-7, position z and orientation x, y are zero and both frames are "/map" |
| Experiment.ParseArity | rrt_planning/src/Experiment.cpp:94-100 | parse succeeds exactly when the delimiters, plus one for a non-empty last field, number eight |
| Experiment.LineRoundTrip | rrt_planning/src/Experiment.cpp:89-122 | two poses written as `_`-separated fields are parsed back, provided the formatting of each of the eight values is non-empty, delimiter-free and inverted by the conversion |

## Left out

- Geometry, distances, steering and the map are uninterpreted fields of `Oracles`. This covers
  `SGMap` queries, `Triangle::contains`, `insideBound`, the metrics and the extender, all of them
  floating-point code outside the planner.
- `Node::insideArea` is modelled as "some local triangle contains the point" (`Covers`), the
  same scan as `insideGlobal`. The `Node` class is not part of this model.
- `CornerIndex` is modelled as a sequence of corners. `getNearestNeighbour` is taken to return
  the earliest corner of least `l2` distance. The index implementation is not part of this
  model.
- The random generators are draw-indexed oracles (`angleNoise`, `positionSample`). A single
  counter `draws` numbers the draws of both samplers.
- Planner.SampleCorner: the source loops until `k` free samples are drawn, with no bound. The
  model stops after `cornerRetries` draws, so the "exactly k" promise holds only when the retries
  are not exhausted.
- Planner.Search: the wall-clock deadline (`timeOut`, `Tmax`) is replaced by a fuel bound on the
  number of iterations. A search that the deadline would stop is modelled as running out of fuel.
- Planner.MakePlan: `count`, `roughness`, `Tcurrent` and `final_path` are not modelled. They are
  statistics, and `computeRoughness` is not part of this model.
- `convertPose` and `publishPlan` (quaternion conversion and message building), the visualizer,
  ROS parameter loading in `initialize`, the plugin export and the destructor are left out. They
  are I/O and plumbing.
- The commented-out `sampleCorner` variant (NHPlannerL2.cpp:548-581) is dead code.
- Experiment.Parse: `stod` is a function parameter. Its exceptions on malformed numbers are not
  modelled, and neither are `main`, `save` and `getPlanner`, which are I/O.
- Experiment.LineRoundTrip: the number formatting of the log is a parameter. The property is
  stated for the eight values written: each must format to non-empty, delimiter-free text that
  `stod` converts back to the value.
- Arithmetic on doubles is exact real arithmetic in the model. This covers the priority sums
  (NHPlannerL2.cpp:388-389, 410-411), the heading addition of `sampleAngle` (605), the
  `getCost() != 0` stop of the path walk (615) and the 2π bound on the heading (236). Rounding
  is not modelled.
- `SearchTree.Reach`: the steer result type `Trajectory` is never empty. The model assumes that
  `steer_l2` never succeeds with an empty trajectory; if it did, `parents.pop_back()`
  (NHPlannerL2.cpp:313) would be undefined behaviour.
- `WallFollowing.FindAction`: the oracle result `Followed(point)` assumes that `collision[0]`
  exists after a successful `followObstacle`. The read at NHPlannerL2.cpp:439 is unguarded, the
  same pattern as the `addGlobal` finding below.
- The `reached` and `corner_samples` maps use the comparator `CmpReached` (NHPlannerL2.h:70-71),
  whose definition is not part of this model. Their keys are treated as exact map keys.
- VoronoiRRTPlanner.cpp, RRTNode.h and the plotting script are outside the modelled core.

## Findings

| source | as written | input that shows it | evidently intended | confidence | as-written member | corrected member |
|---|---|---|---|---|---|---|
| rrt_planning/src/NHPlannerL2.cpp:505-508 | without line of sight, `collision[1]` is read whatever the number of collision points | a blocked node-to-action segment for which the segment query reports a single collision point | the size of the collision vector is checked first, and a blocked segment with fewer than two points closes nothing | low; not executed, and the collision query may never report fewer than two points for a blocked segment | Regions.AddGlobalAsWritten, Regions.AddGlobalReadsPastEnd | Regions.AddGlobal, Regions.AddGlobalAgrees |

=== FILE: experiment.dfy ===
/**
 The experiment runner's configuration parser: an experiment is described by
 one string of eight `_`-separated numbers, the start and goal poses' x, y
 and the z and w components of their orientations.
 */
module Experiment {

  /** A ROS time stamp. */
  datatype Stamp = Stamp(secs: int, nsecs: int)

  datatype Header = Header(sequence: int, stamp: Stamp, frameId: string)

  datatype Position = Position(x: real, y: real, z: real)

  datatype Orientation = Orientation(x: real, y: real, z: real, w: real)

  datatype Pose = Pose(position: Position, orientation: Orientation)

  datatype PoseStamped = PoseStamped(header: Header, pose: Pose)

  const Delimiter: char := '_'

  /** The position of the first delimiter in s, or |s| if there is none. */
  function FirstDelimiter(s: string): (i: nat)
    ensures i <= |s|
    ensures forall j :: 0 <= j < i ==> s[j] != Delimiter
    ensures i < |s| ==> s[i] == Delimiter
  {
    if |s| == 0 || s[0] == Delimiter then 0 else 1 + FirstDelimiter(s[1..])
  }

  /** The segments `getline(stream, segment, '_')` extracts from s until it
      fails: the text before each delimiter, then the text after the last
      delimiter if there is any (an empty tail extracts nothing). */
  function Segments(s: string): (segs: seq<string>)
    ensures forall i :: 0 <= i < |segs| ==> Delimiter !in segs[i]
    decreases |s|
  {
    if |s| == 0 then []
    else
      var i := FirstDelimiter(s);
      if i == |s| then [s] else [s[..i]] + Segments(s[i + 1..])
  }

  /** Each segment followed by a delimiter. */
  function Terminated(segs: seq<string>): string {
    if |segs| == 0 then "" else segs[0] + [Delimiter] + Terminated(segs[1..])
  }

  /** The number of delimiters in s. */
  function Delimiters(s: string): nat {
    if |s| == 0 then 0 else (if s[0] == Delimiter then 1 else 0) + Delimiters(s[1..])
  }

  lemma {:induction false} DelimitersAppend(a: string, b: string)
    ensures Delimiters(a + b) == Delimiters(a) + Delimiters(b)
  {
    if |a| > 0 {
      assert (a + b)[1..] == a[1..] + b;
      DelimitersAppend(a[1..], b);
    } else {
      assert a + b == b;
    }
  }

  lemma {:induction false} NoDelimiters(s: string)
    requires Delimiter !in s
    ensures Delimiters(s) == 0
  {
    if |s| > 0 {
      NoDelimiters(s[1..]);
    }
  }

  /** Splitting at the first delimiter. */
  lemma SplitFirst(s: string)
    requires FirstDelimiter(s) < |s|
    ensures s == s[..FirstDelimiter(s)] + [Delimiter] + s[FirstDelimiter(s) + 1..]
  {
    var i := FirstDelimiter(s);
    SplitAt(s, i);
  }

  lemma SplitAt(s: string, i: nat)
    requires i < |s| && s[i] == Delimiter
    ensures s == s[..i] + [Delimiter] + s[i + 1..]
  {
    var t := s[..i] + [Delimiter] + s[i + 1..];
    assert |t| == |s|;
    forall j | 0 <= j < |s|
      ensures t[j] == s[j]
    {
      if j > i {
        assert t[j] == s[i + 1..][j - i - 1];
      }
    }
  }

  /** Terminating each extracted segment gives back the string, followed by a
      delimiter when it did not already end with one. */
  lemma {:induction false} SegmentsTerminated(s: string)
    ensures Terminated(Segments(s)) == if |s| == 0 || s[|s| - 1] == Delimiter then s else s + [Delimiter]
    decreases |s|
  {
    if |s| > 0 {
      var i := FirstDelimiter(s);
      if i < |s| {
        var rest := s[i + 1..];
        SegmentsTerminated(rest);
        SplitFirst(s);
        assert Segments(s) == [s[..i]] + Segments(rest);
        assert Segments(s)[1..] == Segments(rest);
        if |rest| > 0 {
          assert rest[|rest| - 1] == s[|s| - 1];
        }
      } else {
        assert Segments(s) == [s];
        assert Segments(s)[1..] == [];
        assert s[|s| - 1] != Delimiter;
      }
    }
  }

  /** Segments free of delimiters, each terminated, are extracted back. */
  lemma {:induction false} TerminatedSegments(segs: seq<string>)
    requires forall i :: 0 <= i < |segs| ==> Delimiter !in segs[i]
    ensures Segments(Terminated(segs)) == segs
  {
    if |segs| > 0 {
      var s := Terminated(segs);
      var rest := Terminated(segs[1..]);
      assert s == segs[0] + [Delimiter] + rest;
      FirstOf(segs[0], rest);
      TerminatedSegments(segs[1..]);
      assert s[|segs[0]| + 1..] == rest;
      assert s[..|segs[0]|] == segs[0];
    }
  }

  /** The first delimiter of a + "_" + b, where a holds none, follows a. */
  lemma {:induction false} FirstOf(a: string, b: string)
    requires Delimiter !in a
    ensures FirstDelimiter(a + [Delimiter] + b) == |a|
  {
    if |a| > 0 {
      assert (a + [Delimiter] + b)[1..] == a[1..] + [Delimiter] + b;
      FirstOf(a[1..], b);
    }
  }

  /** The number of segments extracted: one per delimiter, plus one for a
      non-empty tail after the last delimiter. */
  lemma SegmentCount(s: string)
    ensures |Segments(s)| == Delimiters(s) + (if |s| > 0 && s[|s| - 1] != Delimiter then 1 else 0)
  {
    var segs := Segments(s);
    SegmentsTerminated(s);
    TerminatedCount(segs);
    if |s| > 0 && s[|s| - 1] != Delimiter {
      DelimitersAppend(s, [Delimiter]);
    }
  }

  lemma {:induction false} TerminatedCount(segs: seq<string>)
    requires forall i :: 0 <= i < |segs| ==> Delimiter !in segs[i]
    ensures Delimiters(Terminated(segs)) == |segs|
  {
    if |segs| > 0 {
      TerminatedCount(segs[1..]);
      NoDelimiters(segs[0]);
      DelimitersAppend(segs[0], [Delimiter]);
      DelimitersAppend(segs[0] + [Delimiter], Terminated(segs[1..]));
    }
  }

  /** The result of parse: whether it succeeded, and the two poses after it. */
  datatype Parsed = Parsed(ok: bool, start: PoseStamped, goal: PoseStamped)

  /** The pose a configuration describes, written over `p`: position x and
      y, orientation z and w from the four given segments, the other
      position and orientation components zero, the frame "/map". */
  function Assigned(p: PoseStamped, x: real, y: real, z: real, w: real): PoseStamped {
    p.(header := p.header.(frameId := "/map"),
       pose := Pose(Position(x, y, 0.0), Orientation(0.0, 0.0, z, w)))
  }

  /** parse: `stod` is the string-to-double conversion. */
  function Parse(conf: string, start: PoseStamped, goal: PoseStamped, stod: string -> real): (r: Parsed)
    ensures r.ok <==> |Segments(conf)| == 8
    ensures !r.ok ==> r.start == start && r.goal == goal
    ensures r.ok ==>
      var segs := Segments(conf);
      && r.start.pose.position == Position(stod(segs[0]), stod(segs[1]), 0.0)
      && r.start.pose.orientation == Orientation(0.0, 0.0, stod(segs[2]), stod(segs[3]))
      && r.goal.pose.position == Position(stod(segs[4]), stod(segs[5]), 0.0)
      && r.goal.pose.orientation == Orientation(0.0, 0.0, stod(segs[6]), stod(segs[7]))
      && r.start.header == start.header.(frameId := "/map")
      && r.goal.header == goal.header.(frameId := "/map")
  {
    var segs := Segments(conf);
    if |segs| != 8 then Parsed(false, start, goal)
    else
      Parsed(true,
             Assigned(start, stod(segs[0]), stod(segs[1]), stod(segs[2]), stod(segs[3])),
             Assigned(goal, stod(segs[4]), stod(segs[5]), stod(segs[6]), stod(segs[7])))
  }

  /** parse succeeds exactly when the configuration has seven delimiters
      and a non-empty last field, or eight delimiters the last of which
      ends it. */
  lemma ParseArity(conf: string, start: PoseStamped, goal: PoseStamped, stod: string -> real)
    ensures Parse(conf, start, goal, stod).ok
        <==> Delimiters(conf) + (if |conf| > 0 && conf[|conf| - 1] != Delimiter then 1 else 0) == 8
  {
    SegmentCount(conf);
  }

  /** A leading segment free of delimiters is extracted first. */
  lemma ConsSegments(a: string, rest: string)
    requires Delimiter !in a
    ensures Segments(a + [Delimiter] + rest) == [a] + Segments(rest)
  {
    var s := a + [Delimiter] + rest;
    FirstOf(a, rest);
    assert s[..|a|] == a;
    assert s[|a| + 1..] == rest;
  }

  /** The fields separated by delimiters, without a trailing one. */
  function Joined(fields: seq<string>): string
    requires |fields| > 0
  {
    if |fields| == 1 then fields[0] else fields[0] + [Delimiter] + Joined(fields[1..])
  }

  /** Fields free of delimiters, the last one non-empty, are extracted back
      from their joined text. */
  lemma {:induction false} SegmentsJoined(fields: seq<string>)
    requires |fields| > 0 && |fields[|fields| - 1]| > 0
    requires forall i :: 0 <= i < |fields| ==> Delimiter !in fields[i]
    ensures Segments(Joined(fields)) == fields
  {
    if |fields| == 1 {
      FirstDelimiterPrefix(fields[0], []);
      assert fields[0] + [] == fields[0];
    } else {
      SegmentsJoined(fields[1..]);
      ConsSegments(fields[0], Joined(fields[1..]));
    }
  }

  /** The four fields of a pose that a log line carries. */
  function Fields(p: PoseStamped): seq<real> {
    [p.pose.position.x, p.pose.position.y, p.pose.orientation.z, p.pose.orientation.w]
  }

  /** The four fields of a pose as formatted by `show`. */
  function Shown(p: PoseStamped, show: real -> string): (r: seq<string>)
    ensures |r| == 4 && forall i :: 0 <= i < 4 ==> r[i] == show(Fields(p)[i])
  {
    [show(p.pose.position.x), show(p.pose.position.y), show(p.pose.orientation.z), show(p.pose.orientation.w)]
  }

  /** One line of the experiment log for a plan pose: position x and y,
      orientation z and w, formatted by `show` and `_`-separated. */
  function Line(p: PoseStamped, show: real -> string): string {
    Joined(Shown(p, show))
  }

  /** Two joined texts, joined by a delimiter, are the join of both field
      lists. */
  lemma {:induction false} JoinedAppend(a: seq<string>, b: seq<string>)
    requires |a| > 0 && |b| > 0
    ensures Joined(a) + [Delimiter] + Joined(b) == Joined(a + b)
    decreases |a|
  {
    assert (a + b)[0] == a[0];
    assert (a + b)[1..] == a[1..] + b;
    if |a| > 1 {
      JoinedAppend(a[1..], b);
      var d := [Delimiter];
      calc {
        Joined(a) + d + Joined(b);
        a[0] + d + Joined(a[1..]) + d + Joined(b);
        { assert a[0] + d + Joined(a[1..]) + d + Joined(b) == a[0] + d + (Joined(a[1..]) + d + Joined(b)); }
        a[0] + d + Joined(a[1..] + b);
      }
    }
  }

  /** A configuration whose eight segments convert to `vs` parses into the
      poses those values describe. */
  lemma ParseValues(conf: string, a: PoseStamped, b: PoseStamped, stod: string -> real, vs: seq<real>)
    requires |Segments(conf)| == 8 && |vs| == 8
    requires forall i :: 0 <= i < 8 ==> stod(Segments(conf)[i]) == vs[i]
    ensures Parse(conf, a, b, stod) == Parsed(true, Assigned(a, vs[0], vs[1], vs[2], vs[3]),
                                                    Assigned(b, vs[4], vs[5], vs[6], vs[7]))
  {
  }

  /** A configuration written from two poses in the log's format, read back
      by parse: when the formatting of each of the eight values is
      non-empty, free of delimiters and inverted by the conversion, parse
      succeeds and recovers the four fields of each pose. */
  lemma LineRoundTrip(start: PoseStamped, goal: PoseStamped, show: real -> string, stod: string -> real,
                      a: PoseStamped, b: PoseStamped)
    requires forall v :: v in Fields(start) + Fields(goal) ==>
      |show(v)| > 0 && Delimiter !in show(v) && stod(show(v)) == v
    ensures var r := Parse(Line(start, show) + [Delimiter] + Line(goal, show), a, b, stod);
      && r.ok
      && r.start == Assigned(a, start.pose.position.x, start.pose.position.y,
                             start.pose.orientation.z, start.pose.orientation.w)
      && r.goal == Assigned(b, goal.pose.position.x, goal.pose.position.y,
                            goal.pose.orientation.z, goal.pose.orientation.w)
  {
    var fields := Shown(start, show) + Shown(goal, show);
    var values := Fields(start) + Fields(goal);
    forall i | 0 <= i < 8
      ensures |fields[i]| > 0 && Delimiter !in fields[i] && stod(fields[i]) == values[i]
    {
      assert fields[i] == show(values[i]);
      assert values[i] in values;
    }
    JoinedAppend(Shown(start, show), Shown(goal, show));
    SegmentsJoined(fields);
    ParseValues(Line(start, show) + [Delimiter] + Line(goal, show), a, b, stod, values);
  }

  /** A final delimiter after a non-empty text not ending in one extracts
      nothing more: the text is already read as if terminated. */
  lemma TrailingDelimiter(s: string)
    requires |s| > 0 && s[|s| - 1] != Delimiter
    ensures Segments(s + [Delimiter]) == Segments(s)
  {
    SegmentsTerminated(s);
    TerminatedSegments(Segments(s));
  }

  /** The first delimiter of s, when s has one, is also the first of s + t;
      otherwise the first of s + t lies in t. */
  lemma {:induction false} FirstDelimiterPrefix(s: string, t: string)
    ensures FirstDelimiter(s) < |s| ==> FirstDelimiter(s + t) == FirstDelimiter(s)
    ensures FirstDelimiter(s) == |s| ==> FirstDelimiter(s + t) == |s| + FirstDelimiter(t)
  {
    if |s| > 0 {
      assert (s + t)[1..] == s[1..] + t;
      FirstDelimiterPrefix(s[1..], t);
    } else {
      assert s + t == t;
    }
  }
}

=== FILE: frontier.dfy ===
/**
 Frontier admission: inserting a (node, action) pair subject to the pruning
 rule, and propagating a subgoal to a bounded number of a node's ancestors.
 */
module Frontier {
  import opened Geometry
  import opened OpenList
  import opened SearchTree
  import opened Regions
  import opened PlannerState

  /** addOpen: the pair (node, action) joins the frontier, with priority
      node-to-action plus action-to-target distance plus the node's cost,
      unless the action lies in a globally closed triangle (and is not the
      target) or in one of the node's own triangles. */
  function AddOpen(g: Oracles, p: Planner, node: nat, action: Action): (r: Planner)
    requires Valid(p) && node < |p.nodes|
    ensures Valid(r) && Extends(g, p, r)
    ensures r == p.(open := r.open)
    ensures var admitted :=
        (action.state == p.target.state || !Covers(g, p.globalClosed, action.state))
        && !Covers(g, p.nodes[node].triangles, action.state);
      && (admitted ==> r.open == p.open + [Entry(Key(node, action), Priority(g, p.target, p.nodes[node], action))])
      && (!admitted ==> r.open == p.open)
  {
    if action.state != p.target.state && InsideGlobal(g, p.globalClosed, action.state, action.subgoal) then p
    else if Covers(g, p.nodes[node].triangles, action.state) then p
    else p.(open := Insert(p.open, Key(node, action), Priority(g, p.target, p.nodes[node], action)))
  }

  /** The target is never pruned by the global closed list: it is admitted
      whenever the node's own triangles leave it out. */
  lemma TargetNeverClosed(g: Oracles, p: Planner, node: nat, action: Action)
    requires Valid(p) && node < |p.nodes|
    requires action.state == p.target.state && !Covers(g, p.nodes[node].triangles, action.state)
    ensures |AddOpen(g, p, node, action).open| == |p.open| + 1
  {
  }

  /** The ancestors the propagation loop visits, as a sequence of arena
      indices: it starts at `at` and moves to the parent each time, while the
      budget lasts, stopping at the first node that already holds `s` or that
      was `seen` already (a start node is its own parent). */
  function Visited(nodes: seq<Node>, at: nat, s: Config, budget: int, seen: set<nat>): (vs: seq<nat>)
    requires TreeValid(nodes) && at < |nodes|
    ensures forall i :: 0 <= i < |vs| ==> vs[i] < |nodes|
    decreases if budget < 0 then 0 else budget
  {
    if budget <= 0 || s in nodes[at].subgoals || at in seen then []
    else [at] + Visited(nodes, nodes[at].parent, s, budget - 1, seen + {at})
  }

  /** The walk visits at most `budget` nodes, the i-th being the i-th
      ancestor of its start, none holding `s` or seen before, no node twice;
      and when it stops short of the budget, the next ancestor holds `s` or
      was seen or visited already. */
  lemma {:induction false} VisitedWalk(nodes: seq<Node>, at: nat, s: Config, budget: int, seen: set<nat>)
    requires TreeValid(nodes) && at < |nodes|
    ensures var vs := Visited(nodes, at, s, budget, seen);
      && |vs| <= (if budget < 0 then 0 else budget)
      && (forall i :: 0 <= i < |vs| ==> vs[i] == Ancestor(nodes, at, i))
      && (forall i :: 0 <= i < |vs| ==> s !in nodes[vs[i]].subgoals && vs[i] !in seen)
      && (forall i, j :: 0 <= i < j < |vs| ==> vs[i] != vs[j])
      && (|vs| < budget ==>
            var next := Ancestor(nodes, at, |vs|);
            s in nodes[next].subgoals || next in seen || next in vs)
    decreases if budget < 0 then 0 else budget
  {
    var vs := Visited(nodes, at, s, budget, seen);
    if budget <= 0 || s in nodes[at].subgoals || at in seen {
      assert vs == [];
    } else {
      var up := nodes[at].parent;
      var rest := Visited(nodes, up, s, budget - 1, seen + {at});
      VisitedWalk(nodes, up, s, budget - 1, seen + {at});
      assert vs == [at] + rest;
      ConsAncestors(nodes, at, rest);
      ConsDistinct(at, rest);
      if |vs| < budget {
        var next := Ancestor(nodes, up, |rest|);
        assert next == Ancestor(nodes, at, |vs|);
        if next in rest {
          var k :| 0 <= k < |rest| && rest[k] == next;
          assert vs[k + 1] == next;
        }
      }
    }
  }

  /** The walk from a node's parent, preceded by the node, is the walk from
      the node. */
  lemma ConsAncestors(nodes: seq<Node>, at: nat, rest: seq<nat>)
    requires TreeValid(nodes) && at < |nodes|
    requires forall i :: 0 <= i < |rest| ==> rest[i] == Ancestor(nodes, nodes[at].parent, i)
    ensures forall i :: 0 <= i <= |rest| ==> ([at] + rest)[i] == Ancestor(nodes, at, i)
  {
    forall i | 0 < i <= |rest|
      ensures ([at] + rest)[i] == Ancestor(nodes, at, i)
    {
      assert ([at] + rest)[i] == rest[i - 1];
      assert Ancestor(nodes, at, i) == Ancestor(nodes, nodes[at].parent, i - 1);
    }
  }

  /** A node not in a duplicate-free sequence, put in front of it, keeps it
      duplicate-free. */
  lemma ConsDistinct(at: nat, rest: seq<nat>)
    requires at !in rest
    requires forall i, j :: 0 <= i < j < |rest| ==> rest[i] != rest[j]
    ensures forall i, j :: 0 <= i < j <= |rest| ==> ([at] + rest)[i] != ([at] + rest)[j]
  {
    var vs := [at] + rest;
    forall i, j | 0 <= i < j <= |rest|
      ensures vs[i] != vs[j]
    {
      assert vs[j] == rest[j - 1];
      if i > 0 {
        assert vs[i] == rest[i - 1];
      }
    }
  }

  /** The frontier entries the propagation adds for the visited nodes `vs`:
      one per node whose local triangles leave the subgoal out, in visiting
      order. */
  function Enqueued(g: Oracles, target: Action, nodes: seq<Node>, vs: seq<nat>, sub: Action): (es: seq<Entry<Key>>)
    requires forall i :: 0 <= i < |vs| ==> vs[i] < |nodes|
  {
    if |vs| == 0 then []
    else
      var n := nodes[vs[0]];
      (if Covers(g, n.triangles, sub.state) then [] else [Entry(Key(vs[0], sub), Priority(g, target, n, sub))])
      + Enqueued(g, target, nodes, vs[1..], sub)
  }

  /** Each entry is for a visited node whose triangles leave the subgoal out,
      with the subgoal's priority from that node; every such node has one. */
  lemma {:induction false} EnqueuedEntries(g: Oracles, target: Action, nodes: seq<Node>, vs: seq<nat>, sub: Action)
    requires forall i :: 0 <= i < |vs| ==> vs[i] < |nodes|
    ensures var es := Enqueued(g, target, nodes, vs, sub);
      && |es| <= |vs|
      && (forall i :: 0 <= i < |es| ==>
            && es[i].key.action == sub
            && es[i].key.node in vs
            && !Covers(g, nodes[es[i].key.node].triangles, sub.state)
            && es[i].priority == Priority(g, target, nodes[es[i].key.node], sub))
      && (forall v :: v in vs && !Covers(g, nodes[v].triangles, sub.state) ==>
            Entry(Key(v, sub), Priority(g, target, nodes[v], sub)) in es)
  {
    if |vs| > 0 {
      EnqueuedEntries(g, target, nodes, vs[1..], sub);
      var es := Enqueued(g, target, nodes, vs, sub);
      var tail := Enqueued(g, target, nodes, vs[1..], sub);
      var n := nodes[vs[0]];
      var head := if Covers(g, n.triangles, sub.state) then [] else [Entry(Key(vs[0], sub), Priority(g, target, n, sub))];
      assert es == head + tail;
      forall i | 0 <= i < |es|
        ensures es[i].key.node in vs
      {
        if i >= |head| {
          assert es[i] == tail[i - |head|];
          assert tail[i - |head|].key.node in vs[1..];
        }
      }
      forall v | v in vs && !Covers(g, nodes[v].triangles, sub.state)
        ensures Entry(Key(v, sub), Priority(g, target, nodes[v], sub)) in es
      {
        if v != vs[0] {
          assert v in vs[1..];
        }
      }
    }
  }

  /** Node n, with `s` added to its subgoals when it was visited. */
  function Mark(n: Node, s: Config, visited: bool): Node {
    if visited then n.(subgoals := n.subgoals + {s}) else n
  }

  /** Marking a node as holding `s` has the same effect on the walk as
      having seen it. */
  lemma {:induction false} VisitedAfterMark(nodes: seq<Node>, m: nat, x: nat, s: Config, budget: int, seen: set<nat>)
    requires TreeValid(nodes) && m < |nodes| && x < |nodes|
    ensures TreeValid(nodes[m := Mark(nodes[m], s, true)])
    ensures Visited(nodes[m := Mark(nodes[m], s, true)], x, s, budget, seen) == Visited(nodes, x, s, budget, seen + {m})
    decreases if budget < 0 then 0 else budget
  {
    var marked := nodes[m := Mark(nodes[m], s, true)];
    assert forall i :: 0 <= i < |nodes| ==> marked[i].parent == nodes[i].parent && marked[i].cost == nodes[i].cost;
    if budget <= 0 || s in marked[x].subgoals || x in seen {
    } else {
      assert x != m;
      assert seen + {x} + {m} == seen + {m} + {x};
      VisitedAfterMark(nodes, m, nodes[x].parent, s, budget - 1, seen + {x});
    }
  }

  /** Entries depend on the nodes' states, costs and triangles only. */
  lemma {:induction false} EnqueuedAfterMark(g: Oracles, target: Action, nodes: seq<Node>, m: nat, s: Config, vs: seq<nat>, sub: Action)
    requires m < |nodes| && forall i :: 0 <= i < |vs| ==> vs[i] < |nodes|
    ensures Enqueued(g, target, nodes[m := Mark(nodes[m], s, true)], vs, sub) == Enqueued(g, target, nodes, vs, sub)
  {
    if |vs| > 0 {
      EnqueuedAfterMark(g, target, nodes, m, s, vs[1..], sub);
    }
  }

  /** The frontier and arena after (part of) the addSubgoal loop. */
  datatype Grown = Grown(open: seq<Entry<Key>>, nodes: seq<Node>)

  /** The addSubgoal loop from node `at`, iteration `j`: while `at` does not
      hold the subgoal and fewer than `kAncestors` iterations have run,
      enqueue the subgoal at `at` unless `at`'s triangles contain it, record
      it as a subgoal of `at`, and move to the parent. */
  function Propagate(g: Oracles, target: Action, kAncestors: int, open: seq<Entry<Key>>, nodes: seq<Node>,
                     at: nat, sub: Action, j: int): (r: Grown)
    requires TreeValid(nodes) && at < |nodes|
    ensures var vs := Visited(nodes, at, sub.state, kAncestors - j, {});
      && r.open == open + Enqueued(g, target, nodes, vs, sub)
      && |r.nodes| == |nodes|
      && forall i :: 0 <= i < |nodes| ==> r.nodes[i] == Mark(nodes[i], sub.state, i in vs)
    decreases kAncestors - j
  {
    if sub.state in nodes[at].subgoals || j >= kAncestors then Grown(open, nodes)
    else
      var n := nodes[at];
      var head := if Covers(g, n.triangles, sub.state) then [] else [Entry(Key(at, sub), Priority(g, target, n, sub))];
      var nodes1 := nodes[at := Mark(n, sub.state, true)];
      var r := Propagate(g, target, kAncestors, open + head, nodes1, n.parent, sub, j + 1);
      PropagateStep(g, target, kAncestors, open, nodes, at, sub, j, r);
      r
  }

  /** The inductive step of Propagate: one iteration followed by the rest of
      the loop performs the whole walk. */
  lemma PropagateStep(g: Oracles, target: Action, kAncestors: int, open: seq<Entry<Key>>, nodes: seq<Node>,
                      at: nat, sub: Action, j: int, r: Grown)
    requires TreeValid(nodes) && at < |nodes|
    requires sub.state !in nodes[at].subgoals && j < kAncestors
    requires var n := nodes[at];
      var head := if Covers(g, n.triangles, sub.state) then [] else [Entry(Key(at, sub), Priority(g, target, n, sub))];
      var nodes1 := nodes[at := Mark(n, sub.state, true)];
      && TreeValid(nodes1)
      && var vs1 := Visited(nodes1, n.parent, sub.state, kAncestors - (j + 1), {});
      && r.open == open + head + Enqueued(g, target, nodes1, vs1, sub)
      && |r.nodes| == |nodes1|
      && forall i :: 0 <= i < |nodes1| ==> r.nodes[i] == Mark(nodes1[i], sub.state, i in vs1)
    ensures var vs := Visited(nodes, at, sub.state, kAncestors - j, {});
      && r.open == open + Enqueued(g, target, nodes, vs, sub)
      && |r.nodes| == |nodes|
      && forall i :: 0 <= i < |nodes| ==> r.nodes[i] == Mark(nodes[i], sub.state, i in vs)
  {
    var n := nodes[at];
    var s := sub.state;
    var nodes1 := nodes[at := Mark(n, s, true)];
    VisitedStep(nodes, at, s, kAncestors - j);
    var vs := Visited(nodes, at, s, kAncestors - j, {});
    var rest := Visited(nodes1, n.parent, s, kAncestors - (j + 1), {});
    EnqueuedStep(g, target, nodes, at, sub, vs, rest, open);
    MarkComposed(nodes, at, s, rest, vs, r.nodes);
  }

  /** The walk from a node not holding `s` visits it, then walks on from its
      parent with the node marked. */
  lemma VisitedStep(nodes: seq<Node>, at: nat, s: Config, budget: int)
    requires TreeValid(nodes) && at < |nodes| && s !in nodes[at].subgoals && budget > 0
    ensures var nodes1 := nodes[at := Mark(nodes[at], s, true)];
      && TreeValid(nodes1)
      && Visited(nodes, at, s, budget, {}) == [at] + Visited(nodes1, nodes[at].parent, s, budget - 1, {})
  {
    VisitedAfterMark(nodes, at, nodes[at].parent, s, budget - 1, {});
    assert {} + {at} == {at};
  }

  /** The entries for a walk are the entry for its first node followed by
      those for the rest, wherever the first node has been marked. */
  lemma EnqueuedStep(g: Oracles, target: Action, nodes: seq<Node>, at: nat, sub: Action,
                     vs: seq<nat>, rest: seq<nat>, open: seq<Entry<Key>>)
    requires at < |nodes| && vs == [at] + rest
    requires forall i :: 0 <= i < |rest| ==> rest[i] < |nodes|
    ensures var n := nodes[at];
      var head := if Covers(g, n.triangles, sub.state) then [] else [Entry(Key(at, sub), Priority(g, target, n, sub))];
      open + head + Enqueued(g, target, nodes[at := Mark(n, sub.state, true)], rest, sub)
        == open + Enqueued(g, target, nodes, vs, sub)
  {
    var n := nodes[at];
    var head := if Covers(g, n.triangles, sub.state) then [] else [Entry(Key(at, sub), Priority(g, target, n, sub))];
    EnqueuedAfterMark(g, target, nodes, at, sub.state, rest, sub);
    assert vs[1..] == rest;
    assert Enqueued(g, target, nodes, vs, sub) == head + Enqueued(g, target, nodes, rest, sub);
    Associative(open, head, Enqueued(g, target, nodes, rest, sub));
  }

  /** Marking `at` and then the nodes of `rest` marks the nodes of
      `[at] + rest`. */
  lemma MarkComposed(nodes: seq<Node>, at: nat, s: Config, rest: seq<nat>, vs: seq<nat>, marked: seq<Node>)
    requires at < |nodes| && vs == [at] + rest && |marked| == |nodes|
    requires forall i :: 0 <= i < |nodes| ==> marked[i] == Mark(nodes[at := Mark(nodes[at], s, true)][i], s, i in rest)
    ensures forall i :: 0 <= i < |nodes| ==> marked[i] == Mark(nodes[i], s, i in vs)
  {
    forall i | 0 <= i < |nodes|
      ensures marked[i] == Mark(nodes[i], s, i in vs)
    {
      assert (i in vs) == (i == at || i in rest);
      MarkTwice(nodes[i], s, i == at, i in rest);
    }
  }

  lemma MarkTwice(n: Node, s: Config, first: bool, second: bool)
    ensures Mark(Mark(n, s, first), s, second) == Mark(n, s, first || second)
  {
    if first && second {
      assert n.subgoals + {s} + {s} == n.subgoals + {s};
    }
  }

  /** Marking nodes keeps the arena a tree and changes no node's shape. */
  lemma MarkedShape(nodes: seq<Node>, marked: seq<Node>, s: Config, vs: seq<nat>)
    requires TreeValid(nodes) && |marked| == |nodes|
    requires forall i :: 0 <= i < |nodes| ==> marked[i] == Mark(nodes[i], s, i in vs)
    ensures TreeValid(marked)
    ensures forall i :: 0 <= i < |nodes| ==> SameShape(marked[i], nodes[i])
  {
    assert forall i :: 0 <= i < |nodes| ==> SameShape(marked[i], nodes[i]);
  }

  /** The subgoal form of an action: same state, direction and corner flag,
      marked as a subgoal, sharing the action's parent. */
  function SubgoalOf(action: Action): Action {
    Action(action.state, action.clockwise, true, action.corner, ParentLink(action))
  }

  /** addSubgoal: nothing happens if the action lies in a globally closed
      triangle. Otherwise the subgoal form of the action is offered to the
      ancestors the walk visits from the node's parent (at most kAncestors
      of them, stopping at the first that already holds it); each of them
      records it, and each whose triangles leave it out gets a frontier
      entry. */
  function AddSubgoal(g: Oracles, p: Planner, node: nat, action: Action): (r: Planner)
    requires Valid(p) && node < |p.nodes|
    ensures Covers(g, p.globalClosed, action.state) ==> r == p
    ensures !Covers(g, p.globalClosed, action.state) ==>
      var vs := Visited(p.nodes, p.nodes[node].parent, action.state, p.params.kAncestors, {});
      && r == p.(open := r.open, nodes := r.nodes)
      && r.open == p.open + Enqueued(g, p.target, p.nodes, vs, SubgoalOf(action))
      && |r.nodes| == |p.nodes|
      && forall i :: 0 <= i < |p.nodes| ==> r.nodes[i] == Mark(p.nodes[i], action.state, i in vs)
  {
    if InsideGlobal(g, p.globalClosed, action.state, action.subgoal) then p
    else
      var grown := Propagate(g, p.target, p.params.kAncestors, p.open, p.nodes, p.nodes[node].parent, SubgoalOf(action), 0);
      p.(open := grown.open, nodes := grown.nodes)
  }

  /** Appending entries that name existing nodes and obey p's pruning rule
      to p's frontier. */
  lemma AppendAdmissible(g: Oracles, p: Planner, q: Planner, es: seq<Entry<Key>>)
    requires Valid(p) && TreeValid(q.nodes) && |q.nodes| >= |p.nodes| && q.reached == p.reached
    requires q.open == p.open + es
    requires forall i :: 0 <= i < |es| ==> es[i].key.node < |p.nodes| && Admissible(g, p, es[i])
    ensures Valid(q) && InsertsAdmissible(g, p, q.open)
  {
    assert q.open[..|p.open|] == p.open;
    forall i | 0 <= i < |q.open|
      ensures q.open[i].key.node < |q.nodes|
    {
      if i >= |p.open| {
        assert q.open[i] == es[i - |p.open|];
      }
    }
    forall i | |p.open| <= i < |q.open|
      ensures Admissible(g, p, q.open[i])
    {
      assert q.open[i] == es[i - |p.open|];
    }
  }

  /** addSubgoal keeps the planner valid, and every entry it adds obeys the
      pruning rule. */
  lemma AddSubgoalSound(g: Oracles, p: Planner, node: nat, action: Action)
    requires Valid(p) && node < |p.nodes|
    ensures Valid(AddSubgoal(g, p, node, action)) && Extends(g, p, AddSubgoal(g, p, node, action))
  {
    var r := AddSubgoal(g, p, node, action);
    if Covers(g, p.globalClosed, action.state) {
      ExtendsRefl(g, p);
    } else {
      var sub := SubgoalOf(action);
      var vs := Visited(p.nodes, p.nodes[node].parent, action.state, p.params.kAncestors, {});
      var es := Enqueued(g, p.target, p.nodes, vs, sub);
      MarkedShape(p.nodes, r.nodes, action.state, vs);
      EnqueuedEntries(g, p.target, p.nodes, vs, sub);
      forall i | 0 <= i < |es|
        ensures es[i].key.node < |p.nodes| && Admissible(g, p, es[i])
      {
      }
      AppendAdmissible(g, p, r, es);
    }
  }

  /** Node v is one of the first `count` ancestors of `start` (the 0-th
      being `start` itself). */
  ghost predicate AmongAncestors(nodes: seq<Node>, start: nat, count: int, v: nat)
    requires TreeValid(nodes) && start < |nodes|
  {
    exists k: nat :: k < count && v == Ancestor(nodes, start, k)
  }

  /** The propagation enqueues at most `budget` entries, each for one of
      the first `budget` ancestors of the node the walk starts from. */
  lemma {:induction false} EnqueuedAncestors(g: Oracles, target: Action, nodes: seq<Node>, start: nat, sub: Action,
                                             budget: int, vs: seq<nat>)
    requires TreeValid(nodes) && start < |nodes|
    requires vs == Visited(nodes, start, sub.state, budget, {})
    ensures var es := Enqueued(g, target, nodes, vs, sub);
      && |es| <= (if budget < 0 then 0 else budget)
      && forall i :: 0 <= i < |es| ==> AmongAncestors(nodes, start, budget, es[i].key.node)
  {
    var es := Enqueued(g, target, nodes, vs, sub);
    VisitedWalk(nodes, start, sub.state, budget, {});
    EnqueuedEntries(g, target, nodes, vs, sub);
    forall i | 0 <= i < |es|
      ensures AmongAncestors(nodes, start, budget, es[i].key.node)
    {
      var k :| 0 <= k < |vs| && vs[k] == es[i].key.node;
      assert k < budget && es[i].key.node == Ancestor(nodes, start, k);
    }
  }

  /** Entries appended to a frontier that all name early ancestors of `start`. */
  lemma AppendedAmong(nodes: seq<Node>, start: nat, count: int,
                      open: seq<Entry<Key>>, grown: seq<Entry<Key>>, es: seq<Entry<Key>>)
    requires TreeValid(nodes) && start < |nodes|
    requires grown == open + es
    requires forall j :: 0 <= j < |es| ==> AmongAncestors(nodes, start, count, es[j].key.node)
    ensures |grown| - |open| == |es|
    ensures forall i :: |open| <= i < |grown| ==> AmongAncestors(nodes, start, count, grown[i].key.node)
  {
    forall i | |open| <= i < |grown|
      ensures AmongAncestors(nodes, start, count, grown[i].key.node)
    {
      assert grown[i] == es[i - |open|];
    }
  }

  /** At most kAncestors entries are added by one addSubgoal, all of them for
      the parent of the node or one of the parent's first kAncestors - 1
      ancestors. */
  lemma AddSubgoalBounded(g: Oracles, p: Planner, node: nat, action: Action)
    requires Valid(p) && node < |p.nodes|
    ensures var r := AddSubgoal(g, p, node, action);
      && |r.open| - |p.open| <= (if p.params.kAncestors < 0 then 0 else p.params.kAncestors)
      && forall i :: |p.open| <= i < |r.open| ==>
           AmongAncestors(p.nodes, p.nodes[node].parent, p.params.kAncestors, r.open[i].key.node)
  {
    var r := AddSubgoal(g, p, node, action);
    if !Covers(g, p.globalClosed, action.state) {
      var start := p.nodes[node].parent;
      var sub := SubgoalOf(action);
      var vs := Visited(p.nodes, start, sub.state, p.params.kAncestors, {});
      var es := Enqueued(g, p.target, p.nodes, vs, sub);
      EnqueuedAncestors(g, p.target, p.nodes, start, sub, p.params.kAncestors, vs);
      AppendedAmong(p.nodes, start, p.params.kAncestors, p.open, r.open, es);
    }
  }

  /** Entries appended to a frontier that all carry `sub`. */
  lemma AppendedCarry(open: seq<Entry<Key>>, grown: seq<Entry<Key>>, es: seq<Entry<Key>>, sub: Action)
    requires grown == open + es
    requires forall j :: 0 <= j < |es| ==> es[j].key.action == sub
    ensures forall i :: |open| <= i < |grown| ==> grown[i].key.action == sub
  {
    forall i | |open| <= i < |grown|
      ensures grown[i].key.action == sub
    {
      assert grown[i] == es[i - |open|];
    }
  }

  /** Every entry addSubgoal adds carries the subgoal form of the action. */
  lemma AddSubgoalEntries(g: Oracles, p: Planner, node: nat, action: Action)
    requires Valid(p) && node < |p.nodes|
    ensures var r := AddSubgoal(g, p, node, action);
      forall i :: |p.open| <= i < |r.open| ==> r.open[i].key.action == SubgoalOf(action)
  {
    var r := AddSubgoal(g, p, node, action);
    if !Covers(g, p.globalClosed, action.state) {
      var sub := SubgoalOf(action);
      var vs := Visited(p.nodes, p.nodes[node].parent, action.state, p.params.kAncestors, {});
      var es := Enqueued(g, p.target, p.nodes, vs, sub);
      EnqueuedEntries(g, p.target, p.nodes, vs, sub);
      AppendedCarry(p.open, r.open, es, sub);
    }
  }
}

=== FILE: geometry.dfy ===
/**
 Configurations, triangular regions and the geometric collaborators of the
 wall-following planner.

 Everything the planner asks of the map, the distance metrics, the steering
 function and the random generators is floating-point geometry or randomness
 that lives outside the planner. It is collected here as a record of function
 values, `Oracles`, so that every planner operation is a pure function of it.
 */
module Geometry {

  /** A robot configuration: planar position and heading. Equality is exact,
      as the comparison of two Eigen vectors is. */
  datatype Config = Config(x: real, y: real, theta: real)

  /** A planar key (the corner-sample cache is keyed by the corner's x and y). */
  datatype Point = Point(x: real, y: real)

  function PlanarKey(c: Config): Point {
    Point(c.x, c.y)
  }

  /** Three vertices delimiting a wedge of free space. */
  datatype Triangle = Triangle(a: Config, b: Config, c: Config)

  /** The answer of a segment query: whether the segment is clear, and the
      contents of the collision-point vector afterwards. */
  datatype Collision = Collision(lineOfSight: bool, points: seq<Config>)

  /** The answer of an obstacle-following query: on success the clear point
      that the query leaves first in the collision vector; on failure the
      vector's new contents. */
  datatype Follow = Followed(point: Config) | Stuck(points: seq<Config>)

  /** A steering trajectory. A successful steer always reports at least the
      final configuration, which the planner drops. */
  type Trajectory = s: seq<Config> | |s| > 0 witness [Config(0.0, 0.0, 0.0)]

  /** The answer of the steering function: the reached configuration, the
      trajectory towards it and the accumulated cost, or failure. */
  datatype Steer = Steered(state: Config, trajectory: Trajectory, cost: real) | Failed

  /** The uninterpreted collaborators of the planner.
      - `isFree`, `insideBound`: occupancy queries of the map;
      - `l2`, `thetaDistance`: the position and heading distance metrics;
      - `collisionPoints(a, b, prior)`: the segment query a-b, given the prior
        contents of the collision vector it writes into;
      - `followObstacle(a, b, points)`: the single tangential move around an obstacle;
      - `computeMiddle`, `exitPoint(origin, pivot, clockwise)`, `isCorner`: wedge geometry;
      - `inside(t, p)`: whether triangle t contains p;
      - `steer(from, to, cost)`: the kinematic extender, given the cost so far;
      - `atan2(y, x)`: the bearing function;
      - `angleNoise(i)`, `positionSample(i, corner, clockwise)`: the i-th draw
        of the angle and position samplers. */
  datatype Oracles = Oracles(
    isFree: Config -> bool,
    insideBound: Config -> bool,
    l2: (Config, Config) -> real,
    thetaDistance: (Config, Config) -> real,
    collisionPoints: (Config, Config, seq<Config>) -> Collision,
    followObstacle: (Config, Config, seq<Config>) -> Follow,
    computeMiddle: (Config, Config) -> Config,
    exitPoint: (Config, Config, bool) -> Config,
    isCorner: Config -> bool,
    inside: (Triangle, Config) -> bool,
    steer: (Config, Config, real) -> Steer,
    atan2: (real, real) -> real,
    angleNoise: nat -> real,
    positionSample: (nat, Config, bool) -> Config)

  /** M_PI, written as the shortest decimal that rounds to its double value
      (the model's arithmetic is exact, so this is not that double itself). */
  const Pi: real := 3.141592653589793

  function Abs(r: real): real {
    if r < 0.0 then -r else r
  }

  /** Some triangle of `ts` contains `p`. */
  predicate Covers(g: Oracles, ts: seq<Triangle>, p: Config) {
    exists i :: 0 <= i < |ts| && g.inside(ts[i], p)
  }
}

=== FILE: open_list.dfy ===
/**
 The search frontier: a collection of keys with real priorities that supports
 insertion and removal of an entry of least priority. The frontier is kept as
 a sequence in insertion order; among entries of equal priority the earliest
 inserted is removed first.
 */
module OpenList {

  datatype Entry<K> = Entry(key: K, priority: real)

  function Insert<K>(open: seq<Entry<K>>, key: K, priority: real): (r: seq<Entry<K>>)
    ensures multiset(r) == multiset(open) + multiset{Entry(key, priority)}
    ensures |r| == |open| + 1 && r[..|open|] == open
  {
    open + [Entry(key, priority)]
  }

  /** The position of the earliest entry of least priority. */
  function MinIndex<K>(open: seq<Entry<K>>): (i: nat)
    requires |open| > 0
    ensures i < |open|
    ensures forall j :: 0 <= j < |open| ==> open[i].priority <= open[j].priority
    ensures forall j :: 0 <= j < i ==> open[i].priority < open[j].priority
  {
    if |open| == 1 then 0
    else
      var m := MinIndex(open[..|open| - 1]);
      assert forall j :: 0 <= j < |open| - 1 ==> open[..|open| - 1][j] == open[j];
      if open[|open| - 1].priority < open[m].priority then |open| - 1 else m
  }

  /** The entry an OpenList::pop returns, and the frontier left behind. */
  datatype Popped<K> = Popped(entry: Entry<K>, rest: seq<Entry<K>>)

  function Pop<K>(open: seq<Entry<K>>): (r: Popped<K>)
    requires |open| > 0
    ensures multiset(r.rest) + multiset{r.entry} == multiset(open)
    ensures forall e :: e in open ==> r.entry.priority <= e.priority
    ensures |r.rest| == |open| - 1
  {
    var i := MinIndex(open);
    assert open == open[..i] + [open[i]] + open[i + 1..];
    Popped(open[i], open[..i] + open[i + 1..])
  }
}

=== FILE: planner.dfy ===
/**
 The search of the wall-following planner: the goal test, the expansion of a
 popped frontier entry (sampling, reaching, wall following, region closure)
 and the makePlan session around the search loop.
 */
module Planner {
  import opened Geometry
  import opened OpenList
  import opened SearchTree
  import opened Regions
  import opened WallFollowing
  import opened PlannerState
  import opened Frontier

  /** isReached: within `deltaX` of the target in position and within
      `deltaTheta` in heading. */
  function IsReached(g: Oracles, prm: Params, x: Config, target: Config): (r: bool)
    ensures r ==> g.l2(x, target) < prm.deltaX
    ensures r ==> g.thetaDistance(x, target) < prm.deltaTheta
    ensures g.l2(x, target) < prm.deltaX && g.thetaDistance(x, target) < prm.deltaTheta ==> r
  {
    g.l2(x, target) < prm.deltaX && g.thetaDistance(x, target) < prm.deltaTheta
  }

  /** The state of one planning session: the planner's fields and the corner
      index, which lives only as long as the search. */
  datatype Session = Session(p: Planner, corners: seq<Config>)

  /** The session invariant: a valid planner and a corner index holding at
      least the goal. */
  predicate Ready(s: Session) {
    Valid(s.p) && |s.corners| > 0
  }

  /** Every node of p keeps, in q, the subgoals it holds in p. */
  ghost predicate SubgoalsGrow(p: Planner, q: Planner) {
    |p.nodes| <= |q.nodes| && forall i :: 0 <= i < |p.nodes| ==> p.nodes[i].subgoals <= q.nodes[i].subgoals
  }

  /** The configurations to steer towards for a popped action, and the
      heading to sample around. */
  datatype Candidates = Candidates(samples: seq<Config>, theta: real)

  /** The goal is tried as is; a corner through its cached samples (or the
      corner itself when it has none), with headings sampled around the
      bearing from the node to the corner; any other action yields no
      candidate at all. */
  function CandidatesFor(g: Oracles, p: Planner, goal: Config, n: Config, action: Action): (r: Candidates)
    ensures action.state == goal ==> r.samples == [goal]
    ensures action.state != goal && !action.corner ==> r.samples == []
    ensures action.state != goal && action.corner ==>
      && r.theta == g.atan2(action.state.y - n.y, action.state.x - n.x)
      && (PlanarKey(action.state) in p.cornerSamples ==> r.samples == p.cornerSamples[PlanarKey(action.state)])
      && (PlanarKey(action.state) !in p.cornerSamples ==> r.samples == [action.state])
  {
    if action.state == goal then Candidates([goal], action.state.theta)
    else if action.corner then
      var key := PlanarKey(action.state);
      Candidates(if key in p.cornerSamples then p.cornerSamples[key] else [action.state],
                 g.atan2(action.state.y - n.y, action.state.x - n.x))
    else Candidates([], action.state.theta)
  }

  /** Registers a reached node: a node at a new configuration joins the
      arena and the reached table, is offered the target and records the
      goal as its subgoal; a configuration reached before resolves to the
      node already registered for it. Returns the planner and the node's
      index. */
  datatype Registered = Registered(p: Planner, node: nat)

  function Register(g: Oracles, p: Planner, goal: Config, n: Node): (r: Registered)
    requires Valid(p) && n.parent < |p.nodes| && n.triangles == []
    ensures Valid(r.p) && Extends(g, p, r.p) && r.node < |r.p.nodes|
    ensures n.state in r.p.reached && r.p.reached[n.state] == r.node
    ensures r.p.cornerSamples == p.cornerSamples && r.p.draws == p.draws && r.p.length == p.length
    ensures n.state in p.reached ==> r.p == p && r.node == p.reached[n.state]
    ensures n.state !in p.reached ==>
      && r.node == |p.nodes|
      && r.p.nodes == p.nodes + [Mark(n, goal, true)]
      && r.p.reached == p.reached[n.state := r.node]
      && r.p.open == p.open + [Entry(Key(|p.nodes|, p.target), Priority(g, p.target, n, p.target))]
    ensures forall c :: c in p.reached ==> c in r.p.reached && r.p.reached[c] == p.reached[c]
  {
    if n.state in p.reached then Registered(p, p.reached[n.state])
    else Registered(AddNode(g, p, goal, n), |p.nodes|)
  }

  /** A configuration not reached before becomes a new node, offered the
      target, with the goal recorded as its subgoal. */
  function AddNode(g: Oracles, p: Planner, goal: Config, n: Node): (r: Planner)
    requires Valid(p) && n.parent < |p.nodes| && n.triangles == [] && n.state !in p.reached
    ensures Valid(r) && Extends(g, p, r)
    ensures r.cornerSamples == p.cornerSamples && r.draws == p.draws && r.length == p.length
    ensures r.nodes == p.nodes + [Mark(n, goal, true)]
    ensures r.reached == p.reached[n.state := |p.nodes|]
    ensures r.open == p.open + [Entry(Key(|p.nodes|, p.target), Priority(g, p.target, n, p.target))]
  {
    var i := |p.nodes|;
    AppendChild(p.nodes, n);
    var p1 := p.(nodes := p.nodes + [n], reached := p.reached[n.state := i]);
    assert Extends(g, p, p1);
    var p2 := AddOpen(g, p1, i, p1.target);
    ExtendsTrans(g, p, p1, p2);
    var p3 := p2.(nodes := p2.nodes[i := Mark(n, goal, true)]);
    assert Extends(g, p2, p3);
    ExtendsTrans(g, p, p2, p3);
    assert p3.nodes == p.nodes + [Mark(n, goal, true)];
    p3
  }

  /** Offers the popped action's parent, as a subgoal, to a reached node
      that does not hold it yet, and records it there. */
  function OfferParent(g: Oracles, p: Planner, node: nat, action: Action): (r: Planner)
    requires Valid(p) && node < |p.nodes|
    ensures Valid(r) && Extends(g, p, r)
    ensures r.cornerSamples == p.cornerSamples && r.draws == p.draws && r.reached == p.reached
    ensures r.length == p.length && SubgoalsGrow(p, r)
    ensures ParentOf(action).state in r.nodes[node].subgoals
    ensures ParentOf(action).state in p.nodes[node].subgoals ==> r == p
    ensures ParentOf(action).state !in p.nodes[node].subgoals ==>
      && ParentOf(action).state in r.nodes[node].subgoals
      && r.open == AddOpen(g, p, node, SubgoalOf(ParentOf(action))).open
  {
    var par := ParentOf(action);
    if par.state in p.nodes[node].subgoals then p
    else
      var p1 := AddOpen(g, p, node, SubgoalOf(par));
      var p2 := p1.(nodes := p1.nodes[node := Mark(p1.nodes[node], par.state, true)]);
      assert Extends(g, p1, p2);
      ExtendsTrans(g, p, p1, p2);
      p2
  }

  /** One candidate with its heading drawn: the goal keeps its own heading,
      any other candidate gets angle draw number `draws` added to `theta`. */
  function Heading(g: Oracles, goal: Config, theta: real, draws: nat, c: Config): (r: Config)
    ensures r.x == c.x && r.y == c.y
    ensures c == goal ==> r == goal
    ensures c != goal ==> r.theta == g.angleNoise(draws) + theta
  {
    if c != goal then c.(theta := g.angleNoise(draws) + theta) else c
  }

  /** The angle draws one candidate consumes. */
  function Consumed(goal: Config, c: Config): nat {
    if c != goal then 1 else 0
  }

  /** The candidates with their headings drawn in order. */
  function Headings(g: Oracles, goal: Config, theta: real, draws: nat, samples: seq<Config>): (r: seq<Config>)
    ensures |r| == |samples|
    ensures forall i :: 0 <= i < |samples| ==>
      && r[i].x == samples[i].x && r[i].y == samples[i].y
      && (samples[i] == goal ==> r[i] == goal)
    decreases |samples|
  {
    if |samples| == 0 then []
    else [Heading(g, goal, theta, draws, samples[0])]
         + Headings(g, goal, theta, draws + Consumed(goal, samples[0]), samples[1..])
  }

  /** The number of angle draws the candidates consume. */
  function Draws(goal: Config, samples: seq<Config>): nat
    decreases |samples|
  {
    if |samples| == 0 then 0
    else Consumed(goal, samples[0]) + Draws(goal, samples[1..])
  }

  /** Each candidate other than the goal gets as heading the angle draw
      numbered by the draws its predecessors consumed, added to `theta`. */
  lemma HeadingsDrawn(g: Oracles, goal: Config, theta: real, draws: nat, samples: seq<Config>)
    ensures var r := Headings(g, goal, theta, draws, samples);
      forall i :: 0 <= i < |samples| && samples[i] != goal ==>
        r[i].theta == g.angleNoise(draws + Draws(goal, samples[..i])) + theta
  {
    forall i | 0 <= i < |samples| && samples[i] != goal
      ensures Headings(g, goal, theta, draws, samples)[i].theta == g.angleNoise(draws + Draws(goal, samples[..i])) + theta
    {
      var n := draws + Draws(goal, samples[..i]);
      HeadingAt(g, goal, theta, draws, samples, i, n);
      assert Heading(g, goal, theta, n, samples[i]).theta == g.angleNoise(n) + theta;
    }
  }

  /** The heading of the candidate at position i, drawn with draw number
      `n`, by induction on its position. */
  lemma {:induction false} HeadingAt(g: Oracles, goal: Config, theta: real, draws: nat, samples: seq<Config>,
                                     i: nat, n: nat)
    requires i < |samples|
    requires n == draws + Draws(goal, samples[..i])
    ensures Headings(g, goal, theta, draws, samples)[i] == Heading(g, goal, theta, n, samples[i])
    decreases i
  {
    var next := draws + Consumed(goal, samples[0]);
    HeadingsCons(g, goal, theta, draws, samples, next);
    if i == 0 {
      assert samples[..0] == [];
    } else {
      assert samples[1..][i - 1] == samples[i];
      DrawsPrefix(goal, samples, i);
      HeadingAt(g, goal, theta, next, samples[1..], i - 1, n);
    }
  }

  /** The headings of a non-empty list: the first candidate's, then those
      of the rest, drawn after it. */
  lemma HeadingsCons(g: Oracles, goal: Config, theta: real, draws: nat, samples: seq<Config>, next: nat)
    requires |samples| > 0 && next == draws + Consumed(goal, samples[0])
    ensures var r := Headings(g, goal, theta, draws, samples);
      && r[0] == Heading(g, goal, theta, draws, samples[0])
      && r[1..] == Headings(g, goal, theta, next, samples[1..])
  {
  }

  /** The draws of a non-empty prefix: the first candidate's, then those of
      the rest of the prefix. */
  lemma DrawsPrefix(goal: Config, samples: seq<Config>, i: nat)
    requires 0 < i <= |samples|
    ensures Draws(goal, samples[..i]) == Consumed(goal, samples[0]) + Draws(goal, samples[1..][..i - 1])
  {
    assert samples[..i][0] == samples[0];
    assert samples[..i][1..] == samples[1..][..i - 1];
  }

  /** The outcome of trying the candidates: the planner, and whether the
      action still needs improving (no candidate was reached). */
  datatype Tried = Tried(p: Planner, improve: bool)

  /** One pass of the candidate loop: the candidate gets its heading drawn
      unless it is the goal and is steered to from the popped node; a
      reached configuration is registered and offered the action's parent,
      and clears `improve`. */
  function TrySample(g: Oracles, p: Planner, goal: Config, current: nat, action: Action, theta: real,
                     c: Config, improve: bool): (r: Tried)
    requires Valid(p) && current < |p.nodes|
    ensures Valid(r.p) && Extends(g, p, r.p)
    ensures r.p.cornerSamples == p.cornerSamples && r.p.length == p.length
    ensures r.p.draws == p.draws + Consumed(goal, c)
    ensures forall q :: q in p.reached ==> q in r.p.reached && r.p.reached[q] == p.reached[q]
    ensures SubgoalsGrow(p, r.p)
    ensures r.improve <==>
      improve && g.steer(p.nodes[current].state, Heading(g, goal, theta, p.draws, c), p.nodes[current].cost).Failed?
    // A steered candidate is registered and records the action's parent as a subgoal.
    ensures var st := g.steer(p.nodes[current].state, Heading(g, goal, theta, p.draws, c), p.nodes[current].cost);
      st.Steered? ==>
        && st.state in r.p.reached
        && ParentOf(action).state in r.p.nodes[r.p.reached[st.state]].subgoals
  {
    var sample := Heading(g, goal, theta, p.draws, c);
    var p1 := p.(draws := p.draws + Consumed(goal, c));
    assert Extends(g, p, p1);
    match Reach(g, p1.nodes, current, sample)
    case Unreachable => Tried(p1, improve)
    case Reached(n) =>
      var p2 := Arrived(g, p1, goal, action, n);
      ExtendsTrans(g, p, p1, p2);
      Tried(p2, false)
  }

  /** A configuration steered to is registered, and its node is offered
      the popped action's parent. */
  function Arrived(g: Oracles, p: Planner, goal: Config, action: Action, n: Node): (r: Planner)
    requires Valid(p) && n.parent < |p.nodes| && n.triangles == []
    ensures Valid(r) && Extends(g, p, r) && SubgoalsGrow(p, r)
    ensures r.cornerSamples == p.cornerSamples && r.draws == p.draws && r.length == p.length
    ensures forall q :: q in p.reached ==> q in r.reached && r.reached[q] == p.reached[q]
    ensures n.state in r.reached && ParentOf(action).state in r.nodes[r.reached[n.state]].subgoals
  {
    var reg := Register(g, p, goal, n);
    var r := OfferParent(g, reg.p, reg.node, action);
    ExtendsTrans(g, p, reg.p, r);
    assert SubgoalsGrow(p, reg.p);
    assert r.reached[n.state] == reg.node;
    r
  }

  /** The loop over the candidates, in order. */
  function TrySamples(g: Oracles, p: Planner, goal: Config, current: nat, action: Action, theta: real,
                      samples: seq<Config>, improve: bool): (r: Tried)
    requires Valid(p) && current < |p.nodes|
    ensures Valid(r.p) && Extends(g, p, r.p)
    ensures r.p.cornerSamples == p.cornerSamples && r.p.length == p.length
    ensures r.p.draws == p.draws + Draws(goal, samples)
    ensures forall c :: c in p.reached ==> c in r.p.reached && r.p.reached[c] == p.reached[c]
    ensures SubgoalsGrow(p, r.p)
    decreases |samples|
  {
    if |samples| == 0 then Tried(p, improve)
    else
      var t := TrySample(g, p, goal, current, action, theta, samples[0], improve);
      var r := TrySamples(g, t.p, goal, current, action, theta, samples[1..], t.improve);
      ExtendsTrans(g, p, t.p, r.p);
      r
  }

  /** Steering from node x fails towards every configuration of h. */
  predicate AllFail(g: Oracles, x: Node, h: seq<Config>) {
    forall i :: 0 <= i < |h| ==> g.steer(x.state, h[i], x.cost).Failed?
  }

  lemma AllFailCons(g: Oracles, x: Node, c: Config, h: seq<Config>)
    ensures AllFail(g, x, [c] + h) <==> g.steer(x.state, c, x.cost).Failed? && AllFail(g, x, h)
  {
    var ch := [c] + h;
    assert ch[0] == c;
    assert forall i :: 0 < i <= |h| ==> ch[i] == h[i - 1];
    if AllFail(g, x, h) && g.steer(x.state, c, x.cost).Failed? {
      forall i | 0 <= i < |ch|
        ensures g.steer(x.state, ch[i], x.cost).Failed?
      {
        if i > 0 {
          assert ch[i] == h[i - 1];
        }
      }
    }
    if AllFail(g, x, ch) {
      forall i | 0 <= i < |h|
        ensures g.steer(x.state, h[i], x.cost).Failed?
      {
        assert h[i] == ch[i + 1];
      }
    }
  }

  /** The action still needs improving after the loop exactly when it did
      before and the steer from the popped node failed for every candidate,
      headings drawn in order. */
  lemma {:induction false} TrySamplesImprove(g: Oracles, p: Planner, goal: Config, current: nat, action: Action,
                                             theta: real, samples: seq<Config>, improve: bool)
    requires Valid(p) && current < |p.nodes|
    ensures TrySamples(g, p, goal, current, action, theta, samples, improve).improve
        <==> improve && AllFail(g, p.nodes[current], Headings(g, goal, theta, p.draws, samples))
    decreases |samples|
  {
    if |samples| > 0 {
      var x := p.nodes[current];
      var t := TrySample(g, p, goal, current, action, theta, samples[0], improve);
      var sample := Heading(g, goal, theta, p.draws, samples[0]);
      var rest := Headings(g, goal, theta, t.p.draws, samples[1..]);
      HeadingsCons(g, goal, theta, p.draws, samples, t.p.draws);
      assert Headings(g, goal, theta, p.draws, samples) == [sample] + rest;
      AllFailCons(g, x, sample, rest);
      assert SameShape(t.p.nodes[current], x);
      AllFailShape(g, t.p.nodes[current], x, rest);
      TrySamplesImprove(g, t.p, goal, current, action, theta, samples[1..], t.improve);
    }
  }

  /** Every candidate the popped node steers to, headings drawn in order,
      ends up registered, recording the action's parent as a subgoal. */
  lemma {:induction false} TrySamplesReached(g: Oracles, p: Planner, goal: Config, current: nat, action: Action,
                                             theta: real, samples: seq<Config>, improve: bool)
    requires Valid(p) && current < |p.nodes|
    ensures var r := TrySamples(g, p, goal, current, action, theta, samples, improve).p;
      var x := p.nodes[current];
      var h := Headings(g, goal, theta, p.draws, samples);
      forall i :: 0 <= i < |h| && g.steer(x.state, h[i], x.cost).Steered? ==>
        var st := g.steer(x.state, h[i], x.cost);
        st.state in r.reached && ParentOf(action).state in r.nodes[r.reached[st.state]].subgoals
    decreases |samples|
  {
    if |samples| > 0 {
      var x := p.nodes[current];
      var t := TrySample(g, p, goal, current, action, theta, samples[0], improve);
      var r := TrySamples(g, t.p, goal, current, action, theta, samples[1..], t.improve).p;
      var h := Headings(g, goal, theta, p.draws, samples);
      HeadingsCons(g, goal, theta, p.draws, samples, t.p.draws);
      assert SameShape(t.p.nodes[current], x);
      TrySamplesReached(g, t.p, goal, current, action, theta, samples[1..], t.improve);
      forall i | 0 <= i < |h| && g.steer(x.state, h[i], x.cost).Steered?
        ensures var st := g.steer(x.state, h[i], x.cost);
          st.state in r.reached && ParentOf(action).state in r.nodes[r.reached[st.state]].subgoals
      {
        var st := g.steer(x.state, h[i], x.cost);
        if i == 0 {
          SubgoalsKept(t.p, r, st.state);
        } else {
          assert h[i] == h[1..][i - 1];
        }
      }
    }
  }

  /** A registered configuration keeps its node and that node its subgoals
      as the planner extends. */
  lemma SubgoalsKept(p: Planner, q: Planner, c: Config)
    requires Valid(p) && c in p.reached
    requires forall d :: d in p.reached ==> d in q.reached && q.reached[d] == p.reached[d]
    requires Valid(q) && SubgoalsGrow(p, q)
    ensures c in q.reached && p.nodes[p.reached[c]].subgoals <= q.nodes[q.reached[c]].subgoals
  {
  }

  /** Whether steering fails depends only on the node's state and cost. */
  lemma AllFailShape(g: Oracles, x: Node, y: Node, h: seq<Config>)
    requires SameShape(x, y)
    ensures AllFail(g, x, h) <==> AllFail(g, y, h)
  {
  }

  /** The value `k` takes when compared with a vector size: the planner
      compares `samples.size() < k`, which converts k to a 64-bit unsigned
      integer. */
  function AsSize(k: int): (n: nat)
    ensures n < 0x1_0000_0000_0000_0000
    ensures 0 <= k < 0x1_0000_0000_0000_0000 ==> n == k
    ensures -0x1_0000_0000_0000_0000 <= k < 0 ==> n == k + 0x1_0000_0000_0000_0000
  {
    k % 0x1_0000_0000_0000_0000
  }

  /** The samples drawn for a corner, and the draw counter afterwards. */
  datatype Drawn = Drawn(samples: seq<Config>, draws: nat)

  /** sampleCorner's loop: draw positions around the corner on side `cw`,
      keeping the free ones, until `wanted` are kept or the `retries`
      allowed are spent. */
  function CornerLoop(g: Oracles, corner: Config, cw: bool, wanted: nat, draws: nat, retries: nat,
                      acc: seq<Config>): (r: Drawn)
    ensures |acc| <= |r.samples| && r.samples[..|acc|] == acc
    ensures forall i :: |acc| <= i < |r.samples| ==> g.isFree(r.samples[i])
    ensures |acc| <= wanted ==> |r.samples| <= wanted
    ensures draws <= r.draws <= draws + retries
    ensures r.draws < draws + retries ==> |r.samples| >= wanted
    decreases retries
  {
    if |acc| >= wanted || retries == 0 then Drawn(acc, draws)
    else
      var x := g.positionSample(draws, corner, cw);
      CornerLoop(g, corner, cw, wanted, draws + 1, retries - 1, if g.isFree(x) then acc + [x] else acc)
  }

  /** sampleCorner: the corner's cache entry (keyed by its planar position)
      becomes the k free samples drawn around it. */
  function SampleCorner(g: Oracles, p: Planner, corner: Config, cw: bool): (r: Planner)
    ensures r == p.(cornerSamples := r.cornerSamples, draws := r.draws)
    ensures r.cornerSamples.Keys == p.cornerSamples.Keys + {PlanarKey(corner)}
    ensures forall q :: q in p.cornerSamples && q != PlanarKey(corner) ==> r.cornerSamples[q] == p.cornerSamples[q]
    ensures var kept := r.cornerSamples[PlanarKey(corner)];
      && |kept| <= AsSize(p.params.k)
      && (forall i :: 0 <= i < |kept| ==> g.isFree(kept[i]))
      && (r.draws < p.draws + p.params.cornerRetries ==> |kept| == AsSize(p.params.k))
  {
    var d := CornerLoop(g, corner, cw, AsSize(p.params.k), p.draws, p.params.cornerRetries, []);
    p.(cornerSamples := p.cornerSamples[PlanarKey(corner) := d.samples], draws := d.draws)
  }

  /** The corner index lookup: the earliest indexed corner of least distance
      to q. */
  function Nearest(g: Oracles, corners: seq<Config>, q: Config): (r: Config)
    requires |corners| > 0
    ensures r in corners
    ensures forall i :: 0 <= i < |corners| ==> g.l2(r, q) <= g.l2(corners[i], q)
  {
    if |corners| == 1 then corners[0]
    else
      var m := Nearest(g, corners[1..], q);
      assert forall i :: 1 <= i < |corners| ==> corners[i] == corners[1..][i - 1];
      if g.l2(corners[0], q) <= g.l2(m, q) then corners[0] else m
  }

  /** Entries appended to p's frontier in `open` are subgoals or carry
      `action` itself. */
  ghost predicate AddsOnly(p: Planner, open: seq<Entry<Key>>, action: Action) {
    forall i :: |p.open| <= i < |open| ==> open[i].key.action.subgoal || open[i].key.action == action
  }

  /** Entries appended to p's frontier in `open` are all subgoals. */
  ghost predicate SubgoalsOnly(p: Planner, open: seq<Entry<Key>>) {
    forall i :: |p.open| <= i < |open| ==> open[i].key.action.subgoal
  }

  /** addSubgoal from the popped node keeps the planner valid, respects the
      pruning rule and adds subgoals only. */
  lemma AddSubgoalKeeps(g: Oracles, p: Planner, node: nat, action: Action)
    requires Valid(p) && node < |p.nodes|
    ensures var r := AddSubgoal(g, p, node, action);
      && Valid(r) && Extends(g, p, r) && SubgoalsOnly(p, r.open)
      && r.reached == p.reached && r.length == p.length
  {
    AddSubgoalSound(g, p, node, action);
    AddSubgoalEntries(g, p, node, action);
  }

  /** A proposed corner is snapped to a corner already indexed within
      `deltaX`, or else indexed and sampled around with the bearing from the
      node; either way it is offered as a subgoal to the node's ancestors. */
  function OfferCorner(g: Oracles, p: Planner, corners: seq<Config>, current: nat, a: Action): (r: Session)
    requires Valid(p) && |corners| > 0 && current < |p.nodes|
    ensures Ready(r) && Extends(g, p, r.p) && SubgoalsOnly(p, r.p.open)
    ensures r.p.reached == p.reached && r.p.length == p.length
    ensures |corners| <= |r.corners| && r.corners[..|corners|] == corners
    // Snapped: the index is unchanged and the nearest corner is offered instead.
    ensures var nearest := Nearest(g, corners, a.state);
      g.l2(nearest, a.state) < p.params.deltaX ==>
        && r.corners == corners && r.p.cornerSamples == p.cornerSamples
        && r.p == AddSubgoal(g, p, current, a.(state := nearest))
    // New corner: it is indexed, and its samples are cached under its planar position.
    ensures var nearest := Nearest(g, corners, a.state);
      g.l2(nearest, a.state) >= p.params.deltaX ==>
        && r.corners == corners + [a.state]
        && PlanarKey(a.state) in r.p.cornerSamples
        && (forall q :: q in p.cornerSamples ==> q in r.p.cornerSamples)
  {
    var nearest := Nearest(g, corners, a.state);
    if g.l2(nearest, a.state) < p.params.deltaX then
      var copy := a.(state := nearest);
      AddSubgoalKeeps(g, p, current, copy);
      Session(AddSubgoal(g, p, current, copy), corners)
    else
      NewCorner(g, p, corners, current, a)
  }

  /** A corner not yet indexed: it is indexed, sampled around with the
      bearing from the node, and offered as a subgoal. */
  function NewCorner(g: Oracles, p: Planner, corners: seq<Config>, current: nat, a: Action): (r: Session)
    requires Valid(p) && |corners| > 0 && current < |p.nodes|
    ensures Ready(r) && Extends(g, p, r.p) && SubgoalsOnly(p, r.p.open)
    ensures r.p.reached == p.reached && r.p.length == p.length
    ensures r.corners == corners + [a.state]
    ensures PlanarKey(a.state) in r.p.cornerSamples
    ensures forall q :: q in p.cornerSamples ==> q in r.p.cornerSamples
  {
    var n := p.nodes[current].state;
    var p1 := SampleCorner(g, p, a.state.(theta := g.atan2(a.state.y - n.y, a.state.x - n.x)), a.clockwise);
    assert Extends(g, p, p1);
    AddSubgoalKeeps(g, p1, current, a);
    var p2 := AddSubgoal(g, p1, current, a);
    ExtendsTrans(g, p, p1, p2);
    Session(p2, corners + [a.state])
  }

  /** The frontier entry addOpen builds for `a` from node `current`. */
  function Offered(g: Oracles, p: Planner, current: nat, a: Action): Entry<Key>
    requires current < |p.nodes|
  {
    Entry(Key(current, a), Priority(g, p.target, p.nodes[current], a))
  }

  /** addOpen appends the entry for `a` whenever the pruning rule admits it. */
  lemma OfferedJoins(g: Oracles, p: Planner, current: nat, a: Action)
    requires Valid(p) && current < |p.nodes|
    ensures Admissible(g, p, Offered(g, p, current, a)) ==> Offered(g, p, current, a) in AddOpen(g, p, current, a).open
  {
    var r := AddOpen(g, p, current, a);
    if Admissible(g, p, Offered(g, p, current, a)) {
      assert r.open[|p.open|] == Offered(g, p, current, a);
    }
  }

  /** An extension keeps every frontier entry. */
  lemma KeptEntries(g: Oracles, p: Planner, q: Planner)
    requires Extends(g, p, q)
    ensures forall e :: e in p.open ==> e in q.open
  {
    forall e | e in p.open
      ensures e in q.open
    {
      var i :| 0 <= i < |p.open| && p.open[i] == e;
      assert q.open[..|p.open|][i] == e;
    }
  }

  /** The entry built for an action, and whether the pruning rule admits it,
      do not change as the planner extends: regions and node shapes stay. */
  lemma OfferedStable(g: Oracles, p: Planner, q: Planner, current: nat)
    requires Extends(g, p, q) && current < |p.nodes|
    ensures q.nodes[current].state == p.nodes[current].state
    ensures forall a :: Offered(g, q, current, a) == Offered(g, p, current, a)
    ensures forall a :: Admissible(g, q, Offered(g, p, current, a)) <==> Admissible(g, p, Offered(g, p, current, a))
  {
    assert SameShape(q.nodes[current], p.nodes[current]);
  }

  /** One proposed action is enqueued from the popped node, and a corner
      is then offered to the node's ancestors. */
  function Offer(g: Oracles, s: Session, current: nat, a: Action): (r: Session)
    requires Ready(s) && current < |s.p.nodes|
    ensures Ready(r) && Extends(g, s.p, r.p) && AddsOnly(s.p, r.p.open, a)
    ensures r.p.reached == s.p.reached && r.p.length == s.p.length
    ensures |s.corners| <= |r.corners| && r.corners[..|s.corners|] == s.corners
    ensures !a.corner ==> r == Session(AddOpen(g, s.p, current, a), s.corners)
    ensures a.corner ==> r == OfferCorner(g, AddOpen(g, s.p, current, a), s.corners, current, a)
    // The action joins the frontier whenever the pruning rule admits it.
    ensures Admissible(g, s.p, Offered(g, s.p, current, a)) ==> Offered(g, s.p, current, a) in r.p.open
  {
    var p1 := AddOpen(g, s.p, current, a);
    OfferedJoins(g, s.p, current, a);
    if !a.corner then Session(p1, s.corners)
    else
      var r := OfferCorner(g, p1, s.corners, current, a);
      ExtendsTrans(g, s.p, p1, r.p);
      forall i | |s.p.open| <= i < |r.p.open|
        ensures r.p.open[i].key.action.subgoal || r.p.open[i].key.action == a
      {
        if i < |p1.open| {
          assert r.p.open[i] == r.p.open[..|p1.open|][i] == p1.open[i];
        }
      }
      KeptEntries(g, p1, r.p);
      r
  }

  /** Entries appended to p's frontier in `open` are subgoals or differ in
      state from the popped action. */
  ghost predicate ApartFrom(p: Planner, open: seq<Entry<Key>>, popped: Config) {
    forall i :: |p.open| <= i < |open| ==> open[i].key.action.subgoal || open[i].key.action.state != popped
  }

  /** The loop over the actions findAction proposed for the popped `action`:
      each is offered while the popped node's heading is below 2*pi in
      absolute value, unless it has the popped action's state. */
  function EnqueueActions(g: Oracles, s: Session, current: nat, action: Action, actions: seq<Action>): (r: Session)
    requires Ready(s) && current < |s.p.nodes|
    ensures Ready(r) && Extends(g, s.p, r.p) && ApartFrom(s.p, r.p.open, action.state)
    ensures r.p.reached == s.p.reached && r.p.length == s.p.length
    ensures |s.corners| <= |r.corners| && r.corners[..|s.corners|] == s.corners
    ensures Abs(s.p.nodes[current].state.theta) >= 2.0 * Pi ==> r == s
    // Otherwise every proposed action apart from the popped one that the
    // pruning rule admits joins the frontier.
    ensures Abs(s.p.nodes[current].state.theta) < 2.0 * Pi ==>
      forall a :: a in actions && a.state != action.state && Admissible(g, s.p, Offered(g, s.p, current, a)) ==>
        Offered(g, s.p, current, a) in r.p.open
    decreases |actions|
  {
    if |actions| == 0 then s
    else
      var s1 := EnqueueAction(g, s, current, action, actions[0]);
      var r := EnqueueActions(g, s1, current, action, actions[1..]);
      ExtendsTrans(g, s.p, s1.p, r.p);
      KeptEntries(g, s1.p, r.p);
      OfferedStable(g, s.p, s1.p, current);
      assert forall i :: |s.p.open| <= i < |s1.p.open| ==> r.p.open[i] == s1.p.open[i] by {
        assert r.p.open[..|s1.p.open|] == s1.p.open;
      }
      r
  }

  /** One pass of that loop. */
  function EnqueueAction(g: Oracles, s: Session, current: nat, action: Action, a: Action): (r: Session)
    requires Ready(s) && current < |s.p.nodes|
    ensures Ready(r) && Extends(g, s.p, r.p) && ApartFrom(s.p, r.p.open, action.state)
    ensures r.p.reached == s.p.reached && r.p.length == s.p.length
    ensures |s.corners| <= |r.corners| && r.corners[..|s.corners|] == s.corners
    ensures Abs(s.p.nodes[current].state.theta) >= 2.0 * Pi || a.state == action.state ==> r == s
    ensures Abs(s.p.nodes[current].state.theta) < 2.0 * Pi && a.state != action.state ==>
      && r == Offer(g, s, current, a)
      && (Admissible(g, s.p, Offered(g, s.p, current, a)) ==> Offered(g, s.p, current, a) in r.p.open)
  {
    if Abs(s.p.nodes[current].state.theta) < 2.0 * Pi && a.state != action.state then Offer(g, s, current, a)
    else s
  }

  /** The popped node records the local triangles findAction produced. */
  function AddTriangles(p: Planner, current: nat, ts: seq<Triangle>): (r: Planner)
    requires Valid(p) && current < |p.nodes|
    ensures Valid(r) && |r.nodes| == |p.nodes|
    ensures r == p.(nodes := r.nodes)
    ensures r.nodes[current].triangles == p.nodes[current].triangles + ts
    ensures forall i :: 0 <= i < |p.nodes| && i != current ==> r.nodes[i] == p.nodes[i]
    ensures var n := r.nodes[current];
      n == p.nodes[current].(triangles := n.triangles)
  {
    var n := p.nodes[current];
    p.(nodes := p.nodes[current := n.(triangles := n.triangles + ts)])
  }

  /** The action was reached: its region, seen from the popped node towards
      the action's parent, is closed globally, and the popped node records
      the action as a subgoal. */
  function CloseAction(g: Oracles, p: Planner, current: nat, action: Action): (r: Planner)
    requires Valid(p) && current < |p.nodes|
    ensures Valid(r) && |r.nodes| == |p.nodes|
    ensures r == p.(nodes := r.nodes, globalClosed := r.globalClosed)
    ensures r.globalClosed == AddGlobal(g, p.params.deltaX, p.globalClosed, p.nodes[current].state,
                                        action.state, ParentOf(action).state)
    ensures r.nodes[current] == Mark(p.nodes[current], action.state, true)
    ensures forall i :: 0 <= i < |p.nodes| && i != current ==> r.nodes[i] == p.nodes[i]
    ensures SubgoalsGrow(p, r)
    ensures forall c :: c in p.reached ==>
      c in r.reached && p.nodes[p.reached[c]].subgoals <= r.nodes[r.reached[c]].subgoals
  {
    var n := p.nodes[current];
    var closed := AddGlobal(g, p.params.deltaX, p.globalClosed, n.state, action.state, ParentOf(action).state);
    p.(globalClosed := closed, nodes := p.nodes[current := Mark(n, action.state, true)])
  }

  /** One iteration of the search loop after the pop of (current, action):
      the candidates are tried; when none is reached the action is improved
      by wall following, otherwise its region is closed. */
  function Expand(g: Oracles, s: Session, goal: Config, current: nat, action: Action): (r: Session)
    requires Ready(s) && current < |s.p.nodes|
    ensures Ready(r)
    ensures r.p.params == s.p.params && r.p.target == s.p.target && |s.p.nodes| <= |r.p.nodes|
    ensures r.p.length == s.p.length
    // Pruning soundness: every entry added was admissible when the expansion began.
    ensures InsertsAdmissible(g, s.p, r.p.open)
    ensures var x := s.p.nodes[current];
      var c := CandidatesFor(g, s.p, goal, x.state, action);
      var improve := AllFail(g, x, Headings(g, goal, c.theta, s.p.draws, c.samples));
      && (improve ==>
            && r.p.globalClosed == s.p.globalClosed
            && r.p.nodes[current].triangles == x.triangles + FindAction(g, x.state, action).triangles)
      && (!improve ==>
            && r.p.globalClosed == AddGlobal(g, s.p.params.deltaX, s.p.globalClosed, x.state,
                                             action.state, ParentOf(action).state)
            && r.p.nodes[current].triangles == x.triangles
            && action.state in r.p.nodes[current].subgoals)
    // Progress: every candidate steered to is registered, holding the
    // action's parent as a subgoal ...
    ensures var x := s.p.nodes[current];
      var c := CandidatesFor(g, s.p, goal, x.state, action);
      var h := Headings(g, goal, c.theta, s.p.draws, c.samples);
      forall i :: 0 <= i < |h| && g.steer(x.state, h[i], x.cost).Steered? ==>
        var st := g.steer(x.state, h[i], x.cost);
        st.state in r.p.reached && ParentOf(action).state in r.p.nodes[r.p.reached[st.state]].subgoals
    // ... and when none is, every action findAction proposes, other than the
    // popped one, joins the frontier if the pruning rule admits it.
    ensures var x := s.p.nodes[current];
      var c := CandidatesFor(g, s.p, goal, x.state, action);
      AllFail(g, x, Headings(g, goal, c.theta, s.p.draws, c.samples)) && Abs(x.state.theta) < 2.0 * Pi ==>
        forall a ::
          (a in FindAction(g, x.state, action).actions && a.state != action.state &&
           Admissible(g, s.p, Offered(g, s.p, current, a))) ==> Offered(g, s.p, current, a) in r.p.open
  {
    var x := s.p.nodes[current];
    var c := CandidatesFor(g, s.p, goal, x.state, action);
    TrySamplesImprove(g, s.p, goal, current, action, c.theta, c.samples, true);
    TrySamplesReached(g, s.p, goal, current, action, c.theta, c.samples, true);
    var tried := TrySamples(g, s.p, goal, current, action, c.theta, c.samples, true);
    assert SameShape(tried.p.nodes[current], x);
    if tried.improve then Improve(g, s, tried.p, current, action)
    else Session(CloseAction(g, tried.p, current, action), s.corners)
  }

  /** The branch where no candidate was reached: the actions findAction
      proposes are enqueued and the popped node records its triangles. */
  function Improve(g: Oracles, s: Session, t: Planner, current: nat, action: Action): (r: Session)
    requires Ready(s) && current < |s.p.nodes| && Valid(t) && Extends(g, s.p, t)
    ensures Ready(r)
    ensures r.p.params == s.p.params && r.p.target == s.p.target && |s.p.nodes| <= |r.p.nodes|
    ensures r.p.length == t.length && r.p.globalClosed == s.p.globalClosed
    ensures InsertsAdmissible(g, s.p, r.p.open)
    ensures var x := s.p.nodes[current];
      r.p.nodes[current].triangles == x.triangles + FindAction(g, x.state, action).triangles
    ensures var x := s.p.nodes[current];
      Abs(x.state.theta) < 2.0 * Pi ==>
        forall a ::
          (a in FindAction(g, x.state, action).actions && a.state != action.state &&
           Admissible(g, s.p, Offered(g, s.p, current, a))) ==> Offered(g, s.p, current, a) in r.p.open
  {
    var x := s.p.nodes[current];
    OfferedStable(g, s.p, t, current);
    var proposal := FindAction(g, x.state, action);
    var s2 := EnqueueActions(g, Session(t, s.corners), current, action, proposal.actions);
    ExtendsTrans(g, s.p, t, s2.p);
    assert SameShape(s2.p.nodes[current], x);
    Session(AddTriangles(s2.p, current, proposal.triangles), s2.corners)
  }

  /** How a search ended: at a popped node that reaches the goal, with the
      path to it, or without a plan. */
  datatype Outcome = Found(node: nat, path: seq<Config>) | NoPlan

  datatype Ending = Ending(p: Planner, outcome: Outcome)

  /** The frontier pop at the head of each iteration: an entry of least
      priority leaves the frontier. */
  datatype Turn = Turn(p: Planner, entry: Entry<Key>)

  function Take(p: Planner): (r: Turn)
    requires Valid(p) && |p.open| > 0
    ensures Valid(r.p) && r.p == p.(open := r.p.open) && r.entry.key.node < |p.nodes|
    ensures multiset(r.p.open) + multiset{r.entry} == multiset(p.open)
    ensures forall e :: e in p.open ==> r.entry.priority <= e.priority
    ensures r.entry == Pop(p.open).entry
  {
    var popped := Pop(p.open);
    assert popped.entry in p.open by {
      assert popped.entry in multiset(p.open);
    }
    assert forall e :: e in popped.rest ==> e in p.open by {
      assert forall e :: e in popped.rest ==> e in multiset(p.open);
    }
    Turn(p.(open := popped.rest), popped.entry)
  }

  /** An iteration that does not reach the goal: the popped entry is
      expanded. */
  function Continue(g: Oracles, s: Session, goal: Config, turn: Turn): (r: Session)
    requires Ready(Session(turn.p, s.corners)) && turn.entry.key.node < |turn.p.nodes|
    ensures Ready(r)
    ensures r.p.params == turn.p.params && r.p.target == turn.p.target && |turn.p.nodes| <= |r.p.nodes|
    ensures r.p.length == turn.p.length
  {
    Expand(g, Session(turn.p, s.corners), goal, turn.entry.key.node, turn.entry.key.action)
  }

  /** The success exit: the path length becomes the node's cost, the
      per-search collections are cleared and the path to the node is
      reconstructed. */
  function Finish(p: Planner, node: nat): (r: Ending)
    requires Valid(p) && node < |p.nodes|
    ensures Idle(r.p) && Valid(r.p)
    ensures r.p.params == p.params && r.p.target == p.target && r.p.nodes == p.nodes
    ensures r.outcome == Found(node, PathTo(p.nodes, node))
    ensures r.p.length == p.nodes[node].cost
  {
    var done := Cleared(p.(length := p.nodes[node].cost));
    Ending(done, Found(node, PathTo(done.nodes, node)))
  }

  /** The search loop. `fuel` bounds the number of iterations, standing in
      for the wall-clock deadline. Both exits clear the per-search
      collections; a popped node that reaches the goal yields the path to it
      and sets the path length to the node's cost. */
  function Search(g: Oracles, s: Session, goal: Config, fuel: nat): (r: Ending)
    requires Ready(s)
    ensures Idle(r.p) && Valid(r.p)
    ensures r.p.params == s.p.params && r.p.target == s.p.target && |s.p.nodes| <= |r.p.nodes|
    ensures |s.p.open| == 0 || fuel == 0 ==> r == Ending(Cleared(s.p), NoPlan)
    ensures r.outcome.NoPlan? ==> r.p.length == s.p.length
    ensures r.outcome.Found? ==>
      && r.outcome.node < |r.p.nodes|
      && r.outcome.path == PathTo(r.p.nodes, r.outcome.node)
      && IsReached(g, s.p.params, r.p.nodes[r.outcome.node].state, goal)
      && r.p.length == r.p.nodes[r.outcome.node].cost
    // The goal test: the search stops with a plan at the first popped node
    // that reaches the goal.
    ensures |s.p.open| > 0 && fuel > 0 ==>
      var node := Pop(s.p.open).entry.key.node;
      node < |s.p.nodes| && IsReached(g, s.p.params, s.p.nodes[node].state, goal) ==>
        r.outcome == Found(node, PathTo(s.p.nodes, node))
    decreases fuel
  {
    if |s.p.open| == 0 || fuel == 0 then Ending(Cleared(s.p), NoPlan)
    else
      var turn := Take(s.p);
      var p0 := turn.p;
      var current := turn.entry.key.node;
      if IsReached(g, p0.params, p0.nodes[current].state, goal) then
        Finish(p0, current)
      else
        Search(g, Continue(g, s, goal, turn), goal, fuel - 1)
  }

  /** The goal action: clockwise, a subgoal, not a corner, its own parent. */
  function GoalAction(goal: Config): Action {
    Action(goal, true, true, false, Itself)
  }

  /** makePlan: a start or goal that is not free is rejected before anything
      changes. Otherwise the start becomes a new root node (its own parent,
      cost zero), the goal action the target, the pair (root, target) the
      first frontier entry, the goal a subgoal of the root, the start a
      reached configuration and the goal the first indexed corner; then the
      search runs. */
  function MakePlan(g: Oracles, p: Planner, start: Config, goal: Config, fuel: nat): (r: Ending)
    requires Valid(p)
    ensures !g.isFree(start) || !g.isFree(goal) ==> r == Ending(p, NoPlan)
    ensures g.isFree(start) && g.isFree(goal) ==>
      && Idle(r.p) && Valid(r.p)
      && r.p.target == GoalAction(goal) && r.p.params == p.params
      && |r.p.nodes| > |p.nodes|
      && (r.outcome.NoPlan? ==> r.p.length == 0.0)
    ensures r.outcome.Found? ==>
      && r.outcome.node < |r.p.nodes|
      && TreeValid(r.p.nodes)
      && r.outcome.path == PathTo(r.p.nodes, r.outcome.node)
      && IsReached(g, p.params, r.outcome.path[|r.outcome.path| - 1], goal)
      && r.p.length == r.p.nodes[r.outcome.node].cost
    // From an idle planner, a start that already reaches the goal is the
    // plan: the new root, alone.
    ensures Idle(p) && g.isFree(start) && g.isFree(goal) && fuel > 0 && IsReached(g, p.params, start, goal) ==>
      r.outcome == Found(|p.nodes|, [start])
  {
    if !g.isFree(start) || !g.isFree(goal) then Ending(p, NoPlan)
    else
      RootedSearch(g, p, start, goal, fuel);
      RootedFound(g, p, start, goal, fuel);
      Search(g, Rooted(g, p, start, goal), goal, fuel)
  }

  /** makePlan's set-up before the search: the start as a new root node
      (its own parent, cost zero) holding the goal as a subgoal, the goal
      action as the target, offered to the root, the start as a reached
      configuration mapped to the root, and the goal as the only indexed
      corner. */
  function Rooted(g: Oracles, p: Planner, start: Config, goal: Config): (r: Session)
    requires Valid(p)
    ensures Ready(r) && r.corners == [goal]
    ensures r.p.target == GoalAction(goal) && r.p.params == p.params && r.p.length == 0.0
    ensures r.p.cornerSamples == p.cornerSamples && r.p.globalClosed == p.globalClosed && r.p.draws == p.draws
    ensures r.p.nodes == p.nodes + [Node(start, 0.0, |p.nodes|, [], {goal}, [])]
    ensures r.p.reached == p.reached[start := |p.nodes|]
    // The target is admitted unconditionally: the new root has no triangles.
    ensures r.p.open == p.open + [Entry(Key(|p.nodes|, GoalAction(goal)),
                                        Priority(g, GoalAction(goal), r.p.nodes[|p.nodes|], GoalAction(goal)))]
    ensures PathTo(r.p.nodes, |p.nodes|) == [start]
  {
    var root := |p.nodes|;
    var rootNode := Node(start, 0.0, root, [], {}, []);
    var p1 := p.(nodes := p.nodes + [rootNode], target := GoalAction(goal), length := 0.0);
    assert TreeValid(p1.nodes);
    assert !Covers(g, p1.nodes[root].triangles, p1.target.state);
    var p2 := AddOpen(g, p1, root, p1.target);
    var p3 := p2.(nodes := p2.nodes[root := Mark(rootNode, goal, true)], reached := p2.reached[start := root]);
    assert Mark(rootNode, goal, true) == rootNode.(subgoals := {goal});
    assert p3.nodes == p.nodes + [rootNode.(subgoals := {goal})];
    assert TreeValid(p3.nodes);
    Session(p3, [goal])
  }

  /** A plan found by the search from the new root ends at an arena node
      that reaches the goal, with the path to it and its cost as length. */
  lemma RootedFound(g: Oracles, p: Planner, start: Config, goal: Config, fuel: nat)
    requires Valid(p)
    ensures var r := Search(g, Rooted(g, p, start, goal), goal, fuel);
      r.outcome.Found? ==>
        && r.outcome.node < |r.p.nodes|
        && TreeValid(r.p.nodes)
        && r.outcome.path == PathTo(r.p.nodes, r.outcome.node)
        && IsReached(g, p.params, r.outcome.path[|r.outcome.path| - 1], goal)
        && r.p.length == r.p.nodes[r.outcome.node].cost
  {
  }

  /** From an idle planner, a search from the new root ends at once with the
      root alone as the plan when the start already reaches the goal. */
  lemma RootedSearch(g: Oracles, p: Planner, start: Config, goal: Config, fuel: nat)
    requires Valid(p)
    ensures Idle(p) && fuel > 0 && IsReached(g, p.params, start, goal) ==>
      Search(g, Rooted(g, p, start, goal), goal, fuel).outcome == Found(|p.nodes|, [start])
  {
    RootedIdle(g, p, start, goal);
  }

  /** From an idle planner, the set-up leaves the root's entry for the
      target as the only frontier entry. */
  lemma RootedIdle(g: Oracles, p: Planner, start: Config, goal: Config)
    requires Valid(p)
    ensures var r := Rooted(g, p, start, goal).p;
      Idle(p) ==> |r.open| == 1 && Pop(r.open).entry.key.node == |p.nodes|
  {
    var r := Rooted(g, p, start, goal).p;
    if Idle(p) {
      assert Pop(r.open).entry in multiset(r.open);
    }
  }
}

=== FILE: planner_state.dfy ===
/**
 The mutable state of the planner between and during searches, and the
 relations its operations keep: the arena stays a tree, every frontier entry
 and every reached-table value names a node of the arena, and frontier
 insertions respect the pruning rule.
 */
module PlannerState {
  import opened Geometry
  import opened OpenList
  import opened SearchTree

  /** The configured parameters: position tolerance `deltaX`, heading
      tolerance `deltaTheta`, corner-sample count `k` and ancestor depth
      `kAncestors`. `cornerRetries` bounds the corner-sampling retry loop,
      which is unbounded in the planner itself. */
  datatype Params = Params(deltaX: real, deltaTheta: real, k: int, kAncestors: int, cornerRetries: nat)

  /** A frontier key: the node an action is tried from, and the action. */
  datatype Key = Key(node: nat, action: Action)

  /** The planner's fields. `nodes` is the arena of every node ever created
      (clearing the reached table does not free nodes); `draws` counts the
      random draws taken so far; `length` is the cost of the last path found. */
  datatype Planner = Planner(
    params: Params,
    target: Action,
    open: seq<Entry<Key>>,
    reached: map<Config, nat>,
    cornerSamples: map<Point, seq<Config>>,
    globalClosed: seq<Triangle>,
    nodes: seq<Node>,
    draws: nat,
    length: real)

  predicate Valid(p: Planner) {
    && TreeValid(p.nodes)
    && (forall i :: 0 <= i < |p.open| ==> p.open[i].key.node < |p.nodes|)
    && (forall c :: c in p.reached ==> p.reached[c] < |p.nodes|)
  }

  /** The per-search collections are empty. */
  predicate Idle(p: Planner) {
    p.open == [] && p.reached == map[] && p.cornerSamples == map[] && p.globalClosed == []
  }

  /** The clean-up performed on both returns of a search. */
  function Cleared(p: Planner): (r: Planner)
    ensures Idle(r)
    ensures r.nodes == p.nodes && r.target == p.target && r.params == p.params
    ensures r.draws == p.draws && r.length == p.length
  {
    p.(open := [], reached := map[], cornerSamples := map[], globalClosed := [])
  }

  /** The frontier priority of trying `a` from node `n`: distance from the
      node to the action, plus distance from the action to the target, plus
      the node's cost. */
  function Priority(g: Oracles, target: Action, n: Node, a: Action): real {
    g.l2(n.state, a.state) + g.l2(a.state, target.state) + n.cost
  }

  /** Two nodes differ at most in their subgoal sets. */
  predicate SameShape(n: Node, m: Node) {
    n.state == m.state && n.cost == m.cost && n.parent == m.parent
    && n.primitives == m.primitives && n.triangles == m.triangles
  }

  /** The pruning rule, judged against state p: an entry's action lies in no
      globally closed triangle unless it is the target, and lies in no local
      triangle of its node. */
  ghost predicate Admissible(g: Oracles, p: Planner, e: Entry<Key>) {
    && (e.key.action.state == p.target.state || !Covers(g, p.globalClosed, e.key.action.state))
    && (e.key.node < |p.nodes| ==> !Covers(g, p.nodes[e.key.node].triangles, e.key.action.state))
  }

  /** `open` is p's frontier followed by entries admissible in p. */
  ghost predicate InsertsAdmissible(g: Oracles, p: Planner, open: seq<Entry<Key>>) {
    && |p.open| <= |open| && open[..|p.open|] == p.open
    && forall i :: |p.open| <= i < |open| ==> Admissible(g, p, open[i])
  }

  /** q is p after frontier insertions that respected p's pruning rule, with
      no region changed and existing nodes changed in their subgoals only. */
  ghost predicate Extends(g: Oracles, p: Planner, q: Planner) {
    && q.params == p.params && q.target == p.target && q.globalClosed == p.globalClosed
    && |p.nodes| <= |q.nodes|
    && (forall i :: 0 <= i < |p.nodes| ==> SameShape(q.nodes[i], p.nodes[i]))
    && InsertsAdmissible(g, p, q.open)
  }

  lemma ExtendsRefl(g: Oracles, p: Planner)
    ensures Extends(g, p, p)
  {
  }

  /** Insertions judged admissible at an intermediate state were admissible
      at the earlier state too, since no region changed in between. */
  lemma ExtendsTrans(g: Oracles, p: Planner, q: Planner, r: Planner)
    requires Extends(g, p, q) && Extends(g, q, r)
    ensures Extends(g, p, r)
  {
    forall i | |q.open| <= i < |r.open|
      ensures Admissible(g, p, r.open[i])
    {
      assert Admissible(g, q, r.open[i]);
    }
    forall i | 0 <= i < |p.open|
      ensures r.open[i] == p.open[i]
    {
      assert r.open[i] == r.open[..|q.open|][i] == q.open[i];
      assert q.open[i] == q.open[..|p.open|][i] == p.open[i];
    }
    forall i | |p.open| <= i < |q.open|
      ensures r.open[i] == q.open[i]
    {
      assert r.open[i] == r.open[..|q.open|][i];
    }
  }
}

=== FILE: regions.dfy ===
/**
 Triangular regions: the global closed list that prunes candidates anywhere
 in the search, and the wedge triangles recorded around single nodes.
 */
module Regions {
  import opened Geometry
  import opened SearchTree

  /** Whether `p` lies in some globally closed triangle, scanning the list in
      order. The `subgoal` flag is accepted and has no influence. */
  function InsideGlobal(g: Oracles, closed: seq<Triangle>, p: Config, subgoal: bool): (r: bool)
    ensures r <==> Covers(g, closed, p)
  {
    if |closed| == 0 then false
    else if g.inside(closed[0], p) then true
    else
      var r := InsideGlobal(g, closed[1..], p, subgoal);
      assert Covers(g, closed[1..], p) <==> exists i :: 1 <= i < |closed| && g.inside(closed[i], p) by {
        if Covers(g, closed[1..], p) {
          var i :| 0 <= i < |closed| - 1 && g.inside(closed[1..][i], p);
          assert g.inside(closed[i + 1], p);
        }
      }
      r
  }

  /** The third vertex of a region spanned from `from` towards `parent`: the
      midpoint of the two collision points of the segment from-parent when
      the segment query reports exactly two, otherwise `parent` itself.
      `prior` is what the reused collision vector held before the query. */
  function Apex(g: Oracles, from: Config, parent: Config, prior: seq<Config>): (r: Config)
    ensures var c := g.collisionPoints(from, parent, prior);
      && (|c.points| == 2 ==> r == g.computeMiddle(c.points[0], c.points[1]))
      && (|c.points| != 2 ==> r == parent)
  {
    var c := g.collisionPoints(from, parent, prior);
    if |c.points| == 2 then g.computeMiddle(c.points[0], c.points[1]) else parent
  }

  /** The local wedge recorded when node `n` sees `action` directly: the
      action, the node, and the apex towards the action's parent. */
  function CreateTriangle(g: Oracles, action: Action, n: Config): (t: Triangle)
    ensures t.a == action.state && t.b == n
    ensures var c := g.collisionPoints(n, ParentOf(action).state, []);
      && (|c.points| == 2 ==> t.c == g.computeMiddle(c.points[0], c.points[1]))
      && (|c.points| != 2 ==> t.c == ParentOf(action).state)
  {
    Triangle(action.state, n, Apex(g, n, ParentOf(action).state, []))
  }

  /** What addGlobal does with the closed list, read literally. */
  datatype Closure = Skip | Close(t: Triangle) | ReadPastEnd

  /** addGlobal as written: without line of sight from node to action it reads
      the second collision point whatever the number of points reported, so a
      blocked segment with fewer than two points reads past the end of the
      collision vector. */
  function AddGlobalAsWritten(g: Oracles, deltaX: real, node: Config, action: Config, parent: Config): (r: Closure)
    ensures var c := g.collisionPoints(node, action, []);
      r.ReadPastEnd? <==> !c.lineOfSight && |c.points| < 2
    ensures r.Close? ==> r.t.a == node && r.t.b == action
  {
    var c := g.collisionPoints(node, action, []);
    if !c.lineOfSight && |c.points| < 2 then ReadPastEnd
    else if !c.lineOfSight && g.l2(c.points[1], action) > deltaX then Skip
    else Close(Triangle(node, action, Apex(g, node, parent, c.points)))
  }

  /** A segment query that reports a single crossing point. */
  function SingleHitOracles(): Oracles {
    Oracles(
      c => true, c => true, (a, b) => 0.0, (a, b) => 0.0,
      (a, b, prior) => Collision(false, [a]),
      (a, b, prior) => Stuck(prior),
      (a, b) => a, (a, b, cw) => a, c => false, (t, c) => false,
      (a, b, cost) => Failed, (y, x) => 0.0, i => 0.0, (i, c, cw) => c)
  }

  /** A blocked segment reported with a single collision point drives
      addGlobal past the end of the collision vector. */
  lemma AddGlobalReadsPastEnd()
    ensures AddGlobalAsWritten(SingleHitOracles(), 0.5, Config(0.0, 0.0, 0.0), Config(1.0, 0.0, 0.0), Config(2.0, 0.0, 0.0)).ReadPastEnd?
  {
  }

  /** Whether addGlobal closes a region: always with line of sight from node
      to action; without it only when a second collision point exists and
      lies within `deltaX` of the action. */
  predicate Closes(g: Oracles, deltaX: real, node: Config, action: Config) {
    var c := g.collisionPoints(node, action, []);
    c.lineOfSight || (|c.points| >= 2 && g.l2(c.points[1], action) <= deltaX)
  }

  /** addGlobal with the size of the collision vector checked before its
      second point is read: a blocked segment with fewer than two points
      closes nothing. */
  function AddGlobal(g: Oracles, deltaX: real, closed: seq<Triangle>, node: Config, action: Config, parent: Config)
    : (r: seq<Triangle>)
    ensures Closes(g, deltaX, node, action) ==>
      r == closed + [Triangle(node, action, Apex(g, node, parent, g.collisionPoints(node, action, []).points))]
    ensures !Closes(g, deltaX, node, action) ==> r == closed
  {
    var c := g.collisionPoints(node, action, []);
    if !c.lineOfSight && (|c.points| < 2 || g.l2(c.points[1], action) > deltaX) then closed
    else closed + [Triangle(node, action, Apex(g, node, parent, c.points))]
  }

  /** Wherever the literal reading is defined, the guarded addGlobal does
      exactly what it does. */
  lemma AddGlobalAgrees(g: Oracles, deltaX: real, closed: seq<Triangle>, node: Config, action: Config, parent: Config)
    ensures match AddGlobalAsWritten(g, deltaX, node, action, parent)
      case Skip => AddGlobal(g, deltaX, closed, node, action, parent) == closed
      case Close(t) => AddGlobal(g, deltaX, closed, node, action, parent) == closed + [t]
      case ReadPastEnd => AddGlobal(g, deltaX, closed, node, action, parent) == closed
  {
  }

  /** When the node sees the action with no collision point reported, the
      region addGlobal closes is the node's local wedge for that action with
      its first two vertices exchanged. */
  lemma GlobalClosureMatchesLocalWedge(g: Oracles, deltaX: real, closed: seq<Triangle>, node: Config, action: Action)
    requires g.collisionPoints(node, action.state, []) == Collision(true, [])
    ensures var t := CreateTriangle(g, action, node);
      AddGlobal(g, deltaX, closed, node, action.state, ParentOf(action).state) == closed + [Triangle(t.b, t.a, t.c)]
  {
  }
}

=== FILE: search_tree.dfy ===
/**
 The search's data model: actions with shared ancestry, and the tree of
 reached nodes kept as an arena addressed by index. Also the two tree
 operations of the planner that only read the tree: reaching a new node by
 steering, and reconstructing the path to a node.
 */
module SearchTree {
  import opened Geometry

  /** The parent link of an action. The goal action is its own parent; every
      other action points at a (shared, immutable) parent action. */
  datatype Parent = Itself | Of(action: Action)

  /** A proposed target configuration with its wall-following direction,
      subgoal and corner flags and its parent link. */
  datatype Action = Action(state: Config, clockwise: bool, subgoal: bool, corner: bool, parent: Parent)

  /** The action `*a.getParent()` designates. */
  function ParentOf(a: Action): Action {
    match a.parent
    case Itself => a
    case Of(p) => p
  }

  /** The parent link `a.getParent()` that a new action copies from `a`. */
  function ParentLink(a: Action): Parent {
    Of(ParentOf(a))
  }

  /** A node of the search tree. `parent` is an index into the arena; the
      start node is its own parent. `primitives` are the intermediate
      configurations of the steer that created the node, `subgoals` the
      configurations already proposed from it and `triangles` its local
      explored regions. */
  datatype Node = Node(state: Config, cost: real, parent: nat, primitives: seq<Config>,
                       subgoals: set<Config>, triangles: seq<Triangle>)

  /** Every node's parent comes before it in the arena, except a start node,
      which is its own parent and has cost zero. */
  predicate TreeValid(nodes: seq<Node>) {
    forall i :: 0 <= i < |nodes| ==>
      nodes[i].parent < i || (nodes[i].parent == i && nodes[i].cost == 0.0)
  }

  /** The m-th ancestor of node n (the 0-th is n itself). */
  function Ancestor(nodes: seq<Node>, n: nat, m: nat): (a: nat)
    requires TreeValid(nodes) && n < |nodes|
    ensures a < |nodes|
  {
    if m == 0 then n else Ancestor(nodes, nodes[n].parent, m - 1)
  }

  /** The number of parent steps from n to its first ancestor of cost zero,
      where path reconstruction stops. */
  function Depth(nodes: seq<Node>, n: nat): (d: nat)
    requires TreeValid(nodes) && n < |nodes|
    ensures nodes[Ancestor(nodes, n, d)].cost == 0.0
    ensures forall m :: 0 <= m < d ==> nodes[Ancestor(nodes, n, m)].cost != 0.0
    decreases n
  {
    if nodes[n].cost == 0.0 then 0
    else
      var d := Depth(nodes, nodes[n].parent);
      assert forall m :: 0 < m <= d ==> Ancestor(nodes, n, m) == Ancestor(nodes, nodes[n].parent, m - 1);
      1 + d
  }

  /** The dense path from the first cost-zero ancestor of n down to n: each
      node after the first contributes its motion primitives in order,
      followed by its own state. */
  function PathTo(nodes: seq<Node>, n: nat): (path: seq<Config>)
    requires TreeValid(nodes) && n < |nodes|
    ensures |path| > 0
    ensures path[0] == nodes[Ancestor(nodes, n, Depth(nodes, n))].state
    ensures path[|path| - 1] == nodes[n].state
    decreases n
  {
    if nodes[n].cost == 0.0 then [nodes[n].state]
    else PathTo(nodes, nodes[n].parent) + nodes[n].primitives + [nodes[n].state]
  }

  function Reverse<T>(s: seq<T>): (r: seq<T>)
    ensures |r| == |s|
    ensures forall i :: 0 <= i < |s| ==> r[i] == s[|s| - 1 - i]
  {
    if |s| == 0 then [] else Reverse(s[1..]) + [s[0]]
  }

  lemma ReverseAppend<T>(a: seq<T>, b: seq<T>)
    ensures Reverse(a + b) == Reverse(b) + Reverse(a)
  {
    assert forall i :: 0 <= i < |a + b| ==> Reverse(a + b)[i] == (Reverse(b) + Reverse(a))[i];
  }

  lemma ReverseReverse<T>(s: seq<T>)
    ensures Reverse(Reverse(s)) == s
  {
    assert forall i :: 0 <= i < |s| ==> Reverse(Reverse(s))[i] == s[i];
  }

  /** One step of the reconstruction walk: pushing a node's state and its
      reversed primitives moves the unexplained prefix of the path up to the
      node's parent. */
  lemma WalkStep(nodes: seq<Node>, n: nat, acc: seq<Config>)
    requires TreeValid(nodes) && n < |nodes| && nodes[n].cost != 0.0
    ensures PathTo(nodes, n) + Reverse(acc)
         == PathTo(nodes, nodes[n].parent) + Reverse(acc + ([nodes[n].state] + Reverse(nodes[n].primitives)))
  {
    var x := nodes[n];
    var pushed := [x.state] + Reverse(x.primitives);
    ReverseAppend(acc, pushed);
    ReverseAppend([x.state], Reverse(x.primitives));
    ReverseReverse(x.primitives);
    ReverseSingle(x.state);
    var up := PathTo(nodes, x.parent);
    assert PathTo(nodes, n) == up + x.primitives + [x.state];
    Associative(up, x.primitives + [x.state], Reverse(acc));
    assert up + x.primitives + [x.state] == up + (x.primitives + [x.state]);
  }

  /** Concatenation regrouped. */
  lemma Associative<T>(a: seq<T>, b: seq<T>, c: seq<T>)
    ensures a + b + c == a + (b + c)
  {
  }

  lemma ReverseSingle<T>(a: T)
    ensures Reverse([a]) == [a]
  {
    assert [a][1..] == [];
  }

  /** Path reconstruction as the planner performs it: walk the parents from
      `node` until a node of cost zero, pushing each state followed by its
      reversed primitives, then the root's state, and reverse the result. */
  method RetrievePath(nodes: seq<Node>, node: nat) returns (path: seq<Config>, length: real)
    requires TreeValid(nodes) && node < |nodes|
    ensures path == PathTo(nodes, node)
    ensures path[0] == nodes[Ancestor(nodes, node, Depth(nodes, node))].state
    ensures path[|path| - 1] == nodes[node].state
    ensures length == nodes[node].cost
  {
    var current: nat := node;
    length := nodes[current].cost;
    var acc: seq<Config> := [];
    while nodes[current].cost != 0.0
      invariant current < |nodes|
      invariant PathTo(nodes, node) == PathTo(nodes, current) + Reverse(acc)
      decreases current
    {
      WalkStep(nodes, current, acc);
      acc := acc + ([nodes[current].state] + Reverse(nodes[current].primitives));
      current := nodes[current].parent;
    }
    ReverseAppend(acc, [nodes[current].state]);
    acc := acc + [nodes[current].state];
    path := Reverse(acc);
  }

  /** The outcome of an attempt to reach a configuration. */
  datatype ReachResult = Reached(node: Node) | Unreachable

  /** Steer from node `current` towards `target`. On success the new node is
      a child of `current` carrying the steer's cost and the steer's
      trajectory without its final configuration. */
  function Reach(g: Oracles, nodes: seq<Node>, current: nat, target: Config): (r: ReachResult)
    requires current < |nodes|
    ensures r.Reached? <==> g.steer(nodes[current].state, target, nodes[current].cost).Steered?
    ensures r.Reached? ==>
      var s := g.steer(nodes[current].state, target, nodes[current].cost);
      && r.node.state == s.state
      && r.node.cost == s.cost
      && r.node.parent == current
      && r.node.primitives + [s.trajectory[|s.trajectory| - 1]] == s.trajectory
      && r.node.subgoals == {}
      && r.node.triangles == []
  {
    match g.steer(nodes[current].state, target, nodes[current].cost)
    case Failed => Unreachable
    case Steered(x, trajectory, cost) =>
      Reached(Node(x, cost, current, trajectory[..|trajectory| - 1], {}, []))
  }

  /** Appending a child of an existing node keeps the arena a tree. */
  lemma AppendChild(nodes: seq<Node>, child: Node)
    requires TreeValid(nodes) && child.parent < |nodes|
    ensures TreeValid(nodes + [child])
  {
  }
}

=== FILE: wall_following.dfy ===
/**
 Wall following: when an action cannot be reached from a node, the planner
 negotiates the obstacle between them and proposes new actions at the exit
 points on either side of it.
 */
module WallFollowing {
  import opened Geometry
  import opened SearchTree
  import opened Regions

  /** The fixed step below which a collision point counts as close to the
      action's target. */
  const StepThreshold: real := 0.3

  /** The new actions proposed, and the local triangles to record on the node. */
  datatype Proposal = Proposal(actions: seq<Action>, triangles: seq<Triangle>)

  /** How the obstacle between node and action presents itself.
      - `Shortcut`: the segment is clear and following the obstacle yields a
        single clear point;
      - `Wedge`: the obstacle is negotiated through its two collision points,
        `followed` telling whether the segment was clear (and following failed);
      - `TooFewPoints`: fewer than two collision points are left. */
  datatype Situation = Shortcut(point: Config) | Wedge(points: seq<Config>, followed: bool) | TooFewPoints

  function Situate(g: Oracles, n: Config, action: Action): (s: Situation)
    ensures s.Wedge? ==> |s.points| >= 2
  {
    var c := g.collisionPoints(action.state, n, []);
    if c.lineOfSight then
      match g.followObstacle(n, action.state, c.points)
      case Followed(q) => Shortcut(q)
      case Stuck(points) => if |points| < 2 then TooFewPoints else Wedge(points, true)
    else if |c.points| < 2 then TooFewPoints
    else Wedge(c.points, false)
  }

  /** Resampling is forced when the action is itself a subgoal, or when the
      segment was blocked (not merely unfollowable) and both collision points
      lie farther than the step from the action. */
  predicate Forced(g: Oracles, action: Action, points: seq<Config>, followed: bool)
    requires |points| >= 2
  {
    action.subgoal
    || (!followed && g.l2(points[0], action.state) > StepThreshold && g.l2(points[1], action.state) > StepThreshold)
  }

  /** The pivot of the wedge: the midpoint of the collision points, taken
      after the collision vector has been swapped. */
  function Pivot(g: Oracles, points: seq<Config>): Config
    requires |points| >= 2
  {
    g.computeMiddle(points[1], points[0])
  }

  /** The action emitted at the exit point on one side, if that point lies
      inside the map's bounds. */
  function Emit(g: Oracles, exit: Config, clockwise: bool, action: Action, forced: bool): seq<Action> {
    if g.insideBound(exit) then
      [Action(exit, clockwise, false, g.isCorner(exit), if forced then Of(action) else ParentLink(action))]
    else []
  }

  /** The exit-point analysis of a wedge: the clockwise side is tried when the
      action is clockwise or resampling is forced, the counter-clockwise side
      when it is not clockwise or resampling is forced; under resampling, two
      distinct exit points also span a triangle with the action's target. */
  function Exits(g: Oracles, n: Config, action: Action, points: seq<Config>, followed: bool): Proposal
    requires |points| >= 2
  {
    var forced := Forced(g, action, points, followed);
    var middle := Pivot(g, points);
    var tryCw := action.clockwise || forced;
    var tryCcw := !action.clockwise || forced;
    var cw := g.exitPoint(n, middle, true);
    var ccw := g.exitPoint(n, middle, false);
    var vertices := (if tryCw then [cw] else []) + (if tryCcw then [ccw] else []);
    var actions := (if tryCw then Emit(g, cw, true, action, forced) else [])
                 + (if tryCcw then Emit(g, ccw, false, action, forced) else []);
    var wedge := if forced && |vertices| == 2 && vertices[0] != vertices[1]
                 then [Triangle(action.state, vertices[0], vertices[1])] else [];
    Proposal(actions, wedge)
  }

  /** A side is represented among the exit actions exactly when it is tried
      and its exit point lies inside the bounds. */
  lemma ExitSides(g: Oracles, n: Config, action: Action, points: seq<Config>, followed: bool)
    requires |points| >= 2
    ensures var forced := Forced(g, action, points, followed);
      var cw := g.exitPoint(n, Pivot(g, points), true);
      var ccw := g.exitPoint(n, Pivot(g, points), false);
      var r := Exits(g, n, action, points, followed);
      && ((exists i :: 0 <= i < |r.actions| && r.actions[i].clockwise)
            <==> (action.clockwise || forced) && g.insideBound(cw))
      && ((exists i :: 0 <= i < |r.actions| && !r.actions[i].clockwise)
            <==> (!action.clockwise || forced) && g.insideBound(ccw))
  {
    var forced := Forced(g, action, points, followed);
    var cw := g.exitPoint(n, Pivot(g, points), true);
    var ccw := g.exitPoint(n, Pivot(g, points), false);
    var first := if action.clockwise || forced then Emit(g, cw, true, action, forced) else [];
    var second := if !action.clockwise || forced then Emit(g, ccw, false, action, forced) else [];
    var r := Exits(g, n, action, points, followed);
    assert r.actions == first + second;
    if (action.clockwise || forced) && g.insideBound(cw) {
      assert r.actions[0].clockwise;
    }
    if (!action.clockwise || forced) && g.insideBound(ccw) {
      assert !r.actions[|r.actions| - 1].clockwise;
    }
  }

  /** Every exit action lies on a tried side, at that side's exit point
      inside the bounds, and is linked to the action or its parent. */
  lemma ExitRules(g: Oracles, n: Config, action: Action, points: seq<Config>, followed: bool)
    requires |points| >= 2
    ensures var forced := Forced(g, action, points, followed);
      var cw := g.exitPoint(n, Pivot(g, points), true);
      var ccw := g.exitPoint(n, Pivot(g, points), false);
      var r := Exits(g, n, action, points, followed);
      && |r.actions| <= 2
      && (forall i :: 0 <= i < |r.actions| ==>
            var b := r.actions[i];
            && !b.subgoal
            && g.insideBound(b.state)
            && b.corner == g.isCorner(b.state)
            && b.state == (if b.clockwise then cw else ccw)
            && (b.clockwise ==> action.clockwise || forced)
            && (!b.clockwise ==> !action.clockwise || forced)
            && b.parent == (if forced then Of(action) else ParentLink(action)))
      && r.triangles == (if forced && cw != ccw then [Triangle(action.state, cw, ccw)] else [])
  {
    var forced := Forced(g, action, points, followed);
    var cw := g.exitPoint(n, Pivot(g, points), true);
    var ccw := g.exitPoint(n, Pivot(g, points), false);
    var first := if action.clockwise || forced then Emit(g, cw, true, action, forced) else [];
    var second := if !action.clockwise || forced then Emit(g, ccw, false, action, forced) else [];
    var r := Exits(g, n, action, points, followed);
    assert r.actions == first + second;
    forall i | 0 <= i < |r.actions|
      ensures r.actions[i] in first || r.actions[i] in second
    {
      if i < |first| { assert r.actions[i] == first[i]; } else { assert r.actions[i] == second[i - |first|]; }
    }
  }

  /** findAction: the actions proposed from node state `n` for an `action`
      that could not be reached, and the local triangles to record. */
  function FindAction(g: Oracles, n: Config, action: Action): (r: Proposal)
    // A clear segment always records the local wedge towards the action first.
    ensures g.collisionPoints(action.state, n, []).lineOfSight ==>
      |r.triangles| > 0 && r.triangles[0] == CreateTriangle(g, action, n)
    // Following the obstacle succeeds: one corner action at the clear point.
    ensures Situate(g, n, action).Shortcut? ==>
      r.actions == [Action(Situate(g, n, action).point, action.clockwise, false, true, ParentLink(action))]
    // Too few collision points: nothing is proposed.
    ensures Situate(g, n, action).TooFewPoints? ==> r.actions == []
    ensures !Situate(g, n, action).Wedge? ==> |r.triangles| <= 1
  {
    var c := g.collisionPoints(action.state, n, []);
    var local := if c.lineOfSight then [CreateTriangle(g, action, n)] else [];
    match Situate(g, n, action)
    case Shortcut(q) => Proposal([Action(q, action.clockwise, false, true, ParentLink(action))], local)
    case TooFewPoints => Proposal([], local)
    case Wedge(points, followed) =>
      var e := Exits(g, n, action, points, followed);
      Proposal(e.actions, local + e.triangles)
  }

  /** The exit-point rules of findAction around a wedge. */
  lemma FindActionWedge(g: Oracles, n: Config, action: Action)
    requires Situate(g, n, action).Wedge?
    ensures var s := Situate(g, n, action);
      var forced := Forced(g, action, s.points, s.followed);
      var middle := Pivot(g, s.points);
      var cw := g.exitPoint(n, middle, true);
      var ccw := g.exitPoint(n, middle, false);
      var r := FindAction(g, n, action);
      && |r.actions| <= 2
      && (forall i :: 0 <= i < |r.actions| ==>
            var b := r.actions[i];
            && !b.subgoal
            && g.insideBound(b.state)
            && b.corner == g.isCorner(b.state)
            && b.state == (if b.clockwise then cw else ccw)
            && (b.clockwise ==> action.clockwise || forced)
            && (!b.clockwise ==> !action.clockwise || forced)
            && b.parent == (if forced then Of(action) else ParentLink(action)))
      && ((exists i :: 0 <= i < |r.actions| && r.actions[i].clockwise)
            <==> (action.clockwise || forced) && g.insideBound(cw))
      && ((exists i :: 0 <= i < |r.actions| && !r.actions[i].clockwise)
            <==> (!action.clockwise || forced) && g.insideBound(ccw))
      && r.triangles == (if s.followed then [CreateTriangle(g, action, n)] else [])
                      + (if forced && cw != ccw then [Triangle(action.state, cw, ccw)] else [])
  {
    var s := Situate(g, n, action);
    var e := Exits(g, n, action, s.points, s.followed);
    ExitRules(g, n, action, s.points, s.followed);
    ExitSides(g, n, action, s.points, s.followed);
    assert s.followed == g.collisionPoints(action.state, n, []).lineOfSight;
    assert FindAction(g, n, action).actions == e.actions;
  }
}
